=== FILE: README.md ===
# adaptive_platform_ui — native iOS controls, modelled in Dafny

The plugin shows native iOS controls inside a Flutter app. Each control is a
platform view or a manager that Flutter drives over a method channel. This
project models seven of them:

- the standalone tab bar (`TabBar`);
- the app-level native tab bar manager (`NativeTabs`);
- the search tab bar controller (`SearchTabs`);
- the toolbar (`Toolbar`);
- the segmented control (`Segmented`);
- the blur view (`Blur`);
- the scaffold manager (`Scaffold`).

Each model covers the arguments the control decodes, the items it builds,
the state it keeps and the answer it gives to each channel call. Two more
modules hold what the controls share. `Common` has the reply type, the
platform abstraction, the tab-bar item and the title and badge formatting
rules. `Argb` decodes colours packed as ARGB integers.

Conventions:

- A decoded payload is a datatype with `Option` fields. Where a handler
  treats a payload that is not a dictionary like a dictionary without the
  keys it reads, the model passes the datatype with every field absent.
  Where a handler tells the two apart, the payload is itself an `Option`:
  the tab bar's `setStyle` fails with "bad_args" on a payload that is not a
  dictionary but accepts an empty one, and the creation payloads of the
  views are `Option`s as well.
- An `#available(iOS N, *)` check is `Available(p, N)` on a `Platform`
  value. The value carries the major OS version and the set of symbol names
  the system can draw. `UIImage(systemName:)` is `Resolve(p, name)`.
- The objects whose fields the Swift code updates are classes with those
  fields. Their handlers are methods with `modifies` clauses. The lists of
  items and view controllers are `seq` fields that the methods reassign.
- A channel answer is a `Reply`: `Success` for `result(nil)`, `Failure(code)`
  for a `FlutterError`, and `NotImplemented` for `FlutterMethodNotImplemented`.

## Model

| member | source | states |
|---|---|---|
| Common.Resolve | ios/Classes/iOS26TabBarPlatformView.swift:118 | A symbol gives an image exactly when the system knows it, and the image carries that symbol's name. |
| Common.FallbackTitle | ios/Classes/iOS26TabBarPlatformView.swift:121 | The title of an unlabelled tab is "Tab " followed by the decimal digits of the 1-based position, with no leading zero. |
| Common.DecimalRoundTrip | ios/Classes/iOS26TabBarPlatformView.swift:127 | The decimal rendering of a number has only digits, reads back as that number, has no leading zero, and has at most two digits below 100. |
| Common.BadgeText | ios/Classes/iOS26TabBarPlatformView.swift:125-130 | No badge exactly when the count is absent or not positive. The badge is "99+" exactly when the count exceeds 99. Otherwise it is the 1- or 2-digit decimal text of the count, with no leading zero. |
| Common.BadgeTextDistinguishes | ios/Classes/iOS26TabBarPlatformView.swift:126-127 | Two positive counts show the same badge if and only if they are equal or both exceed 99. |
| Argb.Channel | ios/Classes/iOS26TabBarPlatformView.swift:357-360 | A shifted and masked channel always lies in 0..255. |
| Argb.ColorFromArgb | ios/Classes/iOS26TabBarPlatformView.swift:356-362 | Decoding any integer gives four valid 8-bit channels. |
| Argb.UnpackPack | ios/Classes/iOS26SegmentedControlView.swift:150-156 | Decoding the packed form of four valid channels gives those channels back. |
| Argb.PackUnpack | ios/Classes/iOS26TabBarPlatformView.swift:356-362 | Packing the decoded channels of any integer gives its low 32 bits: the decoder reads all 32 bits of a colour and none above. |
| TabBar.ItemAt | ios/Classes/iOS26TabBarPlatformView.swift:94-134 | Every item has the badge of its count. A regular position is a custom item tagged with its index, titled by its label or "Tab i+1", with one image for both states, present iff its symbol is non-empty and drawable. A search position keeps its label as title. It is the system search item tagged i, with no image, exactly from iOS 26 on; below that it has the magnifying-glass image and tag 0. |
| TabBar.Items | ios/Classes/iOS26TabBarPlatformView.swift:136-137 | There is one item per position up to the longer of the label and symbol arrays. |
| TabBar.SelectionFor | ios/Classes/iOS26TabBarPlatformView.swift:145-147 | A requested index selects an item if and only if it names one, and then selects that one. |
| TabBar.BuildItem | ios/Classes/iOS26TabBarPlatformView.swift:95-133 | One pass of the item loop, with its search, symbol and badge branches, builds exactly the item that `ItemAt` specifies for that position. |
| TabBar.BuildItems | ios/Classes/iOS26TabBarPlatformView.swift:94-134 | The imperative item loop yields, at every position, exactly the item that `ItemAt` specifies. |
| TabBar.BadgeUpdateMatchesRebuild | ios/Classes/iOS26TabBarPlatformView.swift:318-341 | For a position the new counts cover, a badge update in place equals rebuilding the bar from the new counts. An uncovered position keeps its old badge, where a rebuild would clear it. |
| TabBar.ApplyBadges | ios/Classes/iOS26TabBarPlatformView.swift:328-340 | A badge update keeps the number of items. An item with a count gets that count's badge text. Later items keep their badge. Nothing but the badge changes. |
| TabBar.ReportedIndexIsTag | ios/Classes/iOS26TabBarPlatformView.swift:104-123 | An item's tag equals its position unless it is a search item below iOS 26 at a position other than 0. |
| TabBar.TabBarPlatformView.constructor | ios/Classes/iOS26TabBarPlatformView.swift:14-171 | Absent arrays are empty. The stored arrays are the given ones. The items are those the arrays specify. The selection is the requested index (default 0) when it names an item. Colours are decoded when given; the tint is applied only from iOS 10. From iOS 13 the container is forced light unless dark is asked for. The minimize behaviour defaults to 3. |
| TabBar.TabBarPlatformView.SetItems | ios/Classes/iOS26TabBarPlatformView.swift:195-265 | Without labels or symbols the call fails with "bad_args" and nothing changes. Otherwise the arrays are replaced and the items rebuilt from them. The selection follows `SelectionFor`, and the colours and style are kept. |
| TabBar.TabBarPlatformView.SetSelectedIndex | ios/Classes/iOS26TabBarPlatformView.swift:267-277 | A missing index fails with "bad_args". An index naming an item selects it. Any other index keeps the selection and succeeds. |
| TabBar.TabBarPlatformView.SetStyle | ios/Classes/iOS26TabBarPlatformView.swift:279-293 | A non-dictionary payload fails with "bad_args". A given tint or background replaces that colour only. |
| TabBar.TabBarPlatformView.SetBrightness | ios/Classes/iOS26TabBarPlatformView.swift:295-305 | A missing flag fails with "bad_args". Otherwise, from iOS 13, the style is forced to the flag. |
| TabBar.TabBarPlatformView.SetMinimizeBehavior | ios/Classes/iOS26TabBarPlatformView.swift:307-316 | A missing behaviour fails with "bad_args". Otherwise it is stored. |
| TabBar.TabBarPlatformView.SetBadgeCounts | ios/Classes/iOS26TabBarPlatformView.swift:318-341 | A missing array fails with "bad_args" and nothing changes. Otherwise the counts are stored and the items become `ApplyBadges` of the old items. |
| TabBar.TabBarPlatformView.DidSelect | ios/Classes/iOS26TabBarPlatformView.swift:350-354 | A tap is reported exactly when the item is on the bar, and the report is its position. |
| Toolbar.ButtonFor | ios/Classes/iOS26ToolbarPlatformView.swift:189-205 | An action makes a button iff it has an icon or a title. The icon wins over the title. |
| Toolbar.ItemsForShape | ios/Classes/iOS26ToolbarPlatformView.swift:189-231 | One action contributes nothing iff it makes no button. Otherwise its button, tagged with its index, comes first. A 12-point fixed space follows iff the action asks for one on iOS 16+. |
| Toolbar.EmitBounds | ios/Classes/iOS26ToolbarPlatformView.swift:187-237 | The items of a range of actions are at most two per action, and there are none exactly when no action in the range makes a button. |
| Toolbar.EmitSplit | ios/Classes/iOS26ToolbarPlatformView.swift:187-237 | The items of a range are the items of its first part followed by those of the rest. |
| Toolbar.FirstFlexible | ios/Classes/iOS26ToolbarPlatformView.swift:183 | The first action that requests a flexible spacer, with none before it. It equals the number of actions iff no action requests one. |
| Toolbar.FirstFlexibleButton | ios/Classes/iOS26ToolbarPlatformView.swift:207-236 | The first action that both makes a button and requests a flexible spacer: the only place the loop as written sets its split flag. |
| Toolbar.GroupItems | ios/Classes/iOS26ToolbarPlatformView.swift:178-240 | The intended grouping. Without a flexible spacer every item goes to the right group, in action order. |
| Toolbar.GroupItemsAsWritten | ios/Classes/iOS26ToolbarPlatformView.swift:183-236 | The grouping the loop computes. Without a flexible request it is the intended grouping. With one but no flexible action that makes a button, the right group is empty. |
| Toolbar.GroupItemsPartition | ios/Classes/iOS26ToolbarPlatformView.swift:178-240 | In the intended grouping, the left group followed by the right group is the items of all actions, in action order: no item is dropped, added or moved out of order. |
| Toolbar.AsWrittenPartition | ios/Classes/iOS26ToolbarPlatformView.swift:183-236 | The same holds for the grouping as written. |
| Toolbar.AsWrittenAgreesWhenMarkerMakesButton | ios/Classes/iOS26ToolbarPlatformView.swift:183-236 | When there is no flexible request, or the first one comes from an action that makes a button, the grouping as written equals the intended grouping. |
| Toolbar.AsWrittenMisplacesButtons | ios/Classes/iOS26ToolbarPlatformView.swift:207-236 | Counterexample: a flexible request on an action with no icon and no title, followed by a "gear" action. As written, the gear button goes left; the corrected grouping puts it right. |
| Toolbar.PlaceAction | ios/Classes/iOS26ToolbarPlatformView.swift:189-236 | One iteration places the action's button and requested fixed space at the end of the left group while the split is still ahead. Otherwise they go at the end of the right group. The other group is unchanged. The split flag becomes set exactly when it was set already or the action asks for a flexible spacer and makes a button. |
| Toolbar.GroupActions | ios/Classes/iOS26ToolbarPlatformView.swift:178-240 | The two-pass loop, with the split flag set only by a flexible request on an action that made a button, computes exactly `GroupItemsAsWritten`. |
| Toolbar.EmitTags | ios/Classes/iOS26ToolbarPlatformView.swift:207-208 | Each emitted button is tagged with the index of the action that made it, and carries that action's button. No leading button is emitted. |
| Toolbar.EmitComplete | ios/Classes/iOS26ToolbarPlatformView.swift:188-209 | Every action in range that makes a button has that button, tagged with its index, among the items. |
| Toolbar.EmitOrdered | ios/Classes/iOS26ToolbarPlatformView.swift:188-209 | Buttons keep the order of their actions. |
| Toolbar.SpacesFollowButtonsAppend | ios/Classes/iOS26ToolbarPlatformView.swift:220-233 | Appending one action's items keeps every fixed space directly after a button whose action asked for one. |
| Toolbar.EmitSpacesFollowButtons | ios/Classes/iOS26ToolbarPlatformView.swift:220-233 | In the items of any range of actions, every fixed space directly follows the button of an action that asked for one. |
| Toolbar.EmitButtonsHaveSpaces | ios/Classes/iOS26ToolbarPlatformView.swift:220-233 | In the items of any range of actions, every button whose action asked for a fixed space on iOS 16+ is directly followed by a 12-point fixed space. |
| Toolbar.FixedSpaceFollowsButton | ios/Classes/iOS26ToolbarPlatformView.swift:220-233 | Each 12-point fixed space stands right after the button of an action that asked for one on iOS 16+. Every such button is followed by one. |
| Toolbar.GroupItemsShape | ios/Classes/iOS26ToolbarPlatformView.swift:178-240 | Without a flexible request, the right group holds the items of all actions. Otherwise the left group holds the items of the actions up to the first flexible one, and the right group holds the rest. |
| Toolbar.GroupButtonsSound | ios/Classes/iOS26ToolbarPlatformView.swift:209-217 | Every button in the left group has an index at most the first flexible one. Every button in the right group has an index after it, or there is no flexible request. |
| Toolbar.ButtonPlaced | ios/Classes/iOS26ToolbarPlatformView.swift:209-217 | An action that makes a button has it in the left group when its index is at most the first flexible one. Otherwise it has it in the right group. |
| Toolbar.GroupSplit | ios/Classes/iOS26ToolbarPlatformView.swift:209-217 | A button is in the left group iff a flexible spacer exists and its index is at most the first flexible one; otherwise it is in the right group. Every button lands in one of the two groups. |
| Toolbar.AsWrittenButtonPlaced | ios/Classes/iOS26ToolbarPlatformView.swift:207-236 | As written, an action's button goes left iff a flexible request exists and its index is at most that of the first flexible action that makes a button. Otherwise it goes right. |
| Toolbar.AsWrittenMisplacesLaterButtons | ios/Classes/iOS26ToolbarPlatformView.swift:183-236 | For every input whose first flexible request comes from an action without a button: each later button, up to the first flexible action that makes one, is in the left group as written and in the right group, not the left, of the intended grouping. |
| Toolbar.LeadingItems | ios/Classes/iOS26ToolbarPlatformView.swift:155-175 | No leading item without a string. An empty string gives the chevron image. Any other string gives a titled button. |
| Toolbar.Reverse | ios/Classes/iOS26ToolbarPlatformView.swift:244 | The reversed group has the same length and element i is element n-1-i of the group. |
| Toolbar.ToolbarPlatformView.constructor | ios/Classes/iOS26ToolbarPlatformView.swift:57-83 | Items are configured only from a dictionary payload: then the left items are the leading item and the left group as written, and the right items are the right group as written, reversed. Otherwise the bar is empty and untitled. |
| Toolbar.ToolbarPlatformView.ConfigureItems | ios/Classes/iOS26ToolbarPlatformView.swift:148-245 | A given title replaces the old one. The left items are the leading item followed by the left group of `GroupItemsAsWritten`. The right items are its right group reversed. |
| Toolbar.ToolbarPlatformView.HandleMethodCall | ios/Classes/iOS26ToolbarPlatformView.swift:255-268 | `updateTitle` with a string sets the title and succeeds. Anything else answers "not implemented" and keeps the title. |
| Toolbar.ToolbarPlatformView.ActionTapped | ios/Classes/iOS26ToolbarPlatformView.swift:251-253 | A tapped button reports its tag. With `EmitTags`, the tag is the index of its action. |
| NativeTabs.ParseTab | ios/Classes/iOS26NativeTabBarManager.swift:233-239 | An entry becomes a tab iff it has a title. `isSearch` defaults to false; symbol and badge count are carried over. |
| NativeTabs.ParseTabs | ios/Classes/iOS26NativeTabBarManager.swift:233-239 | The parse has at most one tab per entry, one per entry when all have titles, and none when no entry has one. |
| NativeTabs.TitledIndices | ios/Classes/iOS26NativeTabBarManager.swift:233-239 | The titled entries' indices, strictly increasing, each titled, and no titled entry missed. |
| NativeTabs.ParseTabsKeepsTitled | ios/Classes/iOS26NativeTabBarManager.swift:233-239 | Parsing drops exactly the untitled entries and keeps order: the k-th tab is the parse of the k-th titled entry. |
| NativeTabs.FirstSearchIndex | ios/Classes/iOS26NativeTabBarManager.swift:81 | The index is -1 iff no tab is a search tab. Otherwise it is a search tab with none before it. |
| NativeTabs.HostedTabFor | ios/Classes/iOS26NativeTabBarManager.swift:86-145 | Every tab is tagged with its index. A search tab is the system search item, titled only by a non-empty title, and has no badge. Any other tab has its title, one image from its symbol and the badge of its count. |
| NativeTabs.BuildViewControllers | ios/Classes/iOS26NativeTabBarManager.swift:86-145 | The loop builds one controller per tab, each equal to `HostedTabFor`. |
| NativeTabs.ApplyBadges | ios/Classes/iOS26NativeTabBarManager.swift:276-289 | A badge update keeps the number of controllers. A controller with a count gets that count's badge text, search tabs included. The others keep their badge. Nothing but the badge changes. |
| NativeTabs.BadgeUpdateOnTabs | ios/Classes/iOS26NativeTabBarManager.swift:276-289 | An update covering a regular tab equals rebuilding that tab from the new count. A covered search tab gains a badge it is never built with. An uncovered tab is untouched. |
| NativeTabs.TabBarController.constructor | ios/Classes/iOS26NativeTabBarManager.swift:69-70 | A new controller has no view controllers and index 0. |
| NativeTabs.TabBarController.SelectedViewController | ios/Classes/iOS26NativeTabBarManager.swift:211 | There is a selected controller iff the index names one, and it is that one. |
| NativeTabs.NativeTabBarManager.constructor | ios/Classes/iOS26NativeTabBarManager.swift:12-19 | The manager starts with no controller, no tabs, search index -1, and disabled. |
| NativeTabs.NativeTabBarManager.EnableNativeTabBar | ios/Classes/iOS26NativeTabBarManager.swift:63-166 | Without a Flutter view controller nothing changes. Otherwise the controller is created once and then reused. It stores the tabs, the first search index, one controller per tab and the index. The manager becomes enabled only when a window shows the bar. |
| NativeTabs.NativeTabBarManager.HandleEnable | ios/Classes/iOS26NativeTabBarManager.swift:226-243 | Without a tab list the call fails with "invalid_args" and nothing changes. Otherwise it succeeds. Without a Flutter view controller nothing changes. With one, the controller is created or reused, the parsed tabs and their first search index are stored, each tab gets `HostedTabFor`, the index defaults to 0, and the bar is enabled once a window shows it. |
| NativeTabs.NativeTabBarManager.DisableNativeTabBar | ios/Classes/iOS26NativeTabBarManager.swift:168-187 | With a Flutter view in a window the bar is disabled and the controller dropped. Otherwise nothing changes. |
| NativeTabs.NativeTabBarManager.SetSelectedIndex | ios/Classes/iOS26NativeTabBarManager.swift:249-256 | A missing index fails with "invalid_args". Otherwise an existing controller gets the index and keeps its tabs. |
| NativeTabs.NativeTabBarManager.SetBadgeCounts | ios/Classes/iOS26NativeTabBarManager.swift:269-290 | A missing array fails with "invalid_args". Otherwise an existing controller's tabs become `ApplyBadges` of the old ones and its index is kept. |
| NativeTabs.NativeTabBarManager.IsEnabled | ios/Classes/iOS26NativeTabBarManager.swift:266-267 | The query answers the enabled flag. |
| NativeTabs.NativeTabBarManager.NotifyTabSelected | ios/Classes/iOS26NativeTabBarManager.swift:204-214 | The index is always reported. The Flutter view moves iff the index is not the search tab's, a Flutter view exists, and the selected controller is a Flutter tab. |
| NativeTabs.NativeTabBarManager.DidSelect | ios/Classes/iOS26NativeTabBarManager.swift:301-304 | A tapped controller reports its position among the view controllers, and 0 when it is not among them. The Flutter view then moves exactly as `NotifyTabSelected` decides for that index. |
| SearchTabs.ConfigurationAt | ios/Classes/iOS26SearchTabBarController.swift:69-80 | A configuration carries its position and the bounds-checked label, symbol and search flag there. |
| SearchTabs.LastSearchIndex | ios/Classes/iOS26SearchTabBarController.swift:71-73 | With a search tab, the index is a search tab with none after it. Without one it stays at its start value. |
| SearchTabs.ControllerFor | ios/Classes/iOS26SearchTabBarController.swift:105-145 | A controller is a navigation controller iff its tab is a search tab. Inside is the system search item, tagged with the index and titled by the label only. A regular tab has its label or "Tab index+1", its symbol's image in both states and its index as tag. |
| SearchTabs.SearchTabBarController.constructor | ios/Classes/iOS26SearchTabBarController.swift:22-40 | Without arguments there are no tabs, search index -1 and index 0. Otherwise the configuration is `SetupFromArgs`'s. |
| SearchTabs.SearchTabBarController.SetupFromArgs | ios/Classes/iOS26SearchTabBarController.swift:63-84 | There is one configuration per position up to the longer array. The search index ends at the last search tab (or -1). The index defaults to 0. |
| SearchTabs.SearchTabBarController.ViewDidLoad | ios/Classes/iOS26SearchTabBarController.swift:46-61 | There is one controller per configuration, and exactly the search tabs are wrapped. A search controller exists and is installed iff there is a search tab. |
| SearchTabs.SearchTabBarController.SetupViewControllers | ios/Classes/iOS26SearchTabBarController.swift:105-146 | The loop builds exactly `ControllerFor` of every configuration, in order. |
| SearchTabs.SearchTabBarController.SetupSearchController | ios/Classes/iOS26SearchTabBarController.swift:148-168 | The search tab's controller lookup stays in bounds and finds a navigation controller, so the search controller is installed. |
| SearchTabs.SearchTabBarController.SetSelectedIndex | ios/Classes/iOS26SearchTabBarController.swift:180-187 | A missing index fails with "invalid_args". Otherwise the index is stored. |
| SearchTabs.SearchTabBarController.DidSelect | ios/Classes/iOS26SearchTabBarController.swift:238-241 | A tapped controller reports its position, and 0 when it is not found. |
| Blur.ParseBlurStyle | ios/Classes/iOS26BlurViewPlatformView.swift:94-133 | From iOS 13 every name gives a material, and an unknown name gives the ultra-thin one. Below iOS 13 the thick and chrome names give the dark style and every other name the light style. |
| Blur.ParseIsInverseOfName | ios/Classes/iOS26BlurViewPlatformView.swift:94-133 | From iOS 13, parsing a known name gives the material of that name, and every material's name parses back to it. |
| Blur.BlurViewPlatformView.constructor | ios/Classes/iOS26BlurViewPlatformView.swift:37-56 | The effect is the named style, or the ultra-thin material when no name is given. |
| Blur.BlurViewPlatformView.HandleMethodCall | ios/Classes/iOS26BlurViewPlatformView.swift:76-91 | `updateBlurStyle` with a name applies it. Without a name it fails with "INVALID_ARGS" and keeps the effect. Other methods are not implemented. |
| Segmented.SymbolSegments | ios/Classes/iOS26SegmentedControlView.swift:80-89 | There are at most as many segments as symbols, and all are image segments. |
| Segmented.LabelSegments | ios/Classes/iOS26SegmentedControlView.swift:109-113 | There is one title segment per label, in order. |
| Segmented.Segments | ios/Classes/iOS26SegmentedControlView.swift:78-113 | A non-empty symbol list gives only image segments, at most one per symbol. Otherwise labels give one title segment each, in order. With neither there are no segments. |
| Segmented.SymbolSegmentsAppend | ios/Classes/iOS26SegmentedControlView.swift:82-89 | The segments of concatenated symbol lists are the concatenation of their segments: skipping keeps order. |
| Segmented.SymbolSegmentsExactly | ios/Classes/iOS26SegmentedControlView.swift:82-89 | A symbol has a segment iff it is in the list and the system can draw it. |
| Segmented.SymbolSegmentsAllKnown | ios/Classes/iOS26SegmentedControlView.swift:82-89 | When every symbol can be drawn, segment k shows symbol k. |
| Segmented.BuildSegments | ios/Classes/iOS26SegmentedControlView.swift:78-113 | The insertion loops yield exactly `Segments`: symbols when non-empty, else labels, else nothing. |
| Segmented.SelectionAfter | ios/Classes/iOS26SegmentedControlView.swift:167-176 | An index inside the control selects it, -1 clears the selection, and anything else keeps it. |
| Segmented.SelectionAfterKeepsRange | ios/Classes/iOS26SegmentedControlView.swift:167-176 | A valid selection or none stays valid, and repeating a request changes nothing. |
| Segmented.SegmentedControlView.constructor | ios/Classes/iOS26SegmentedControlView.swift:39-137 | Segments come from the payload. The enabled state and tint are applied when given. The icon colour applies only to symbol segments. A negative selection is ignored. Brightness is recorded, and forced from iOS 13. Without a payload the control is empty, enabled and unselected. |
| Segmented.SegmentedControlView.HandleMethodCall | ios/Classes/iOS26SegmentedControlView.swift:165-191 | `setSelectedIndex` moves the selection per `SelectionAfter`, and `setBrightness` records and forces the style. Both always succeed and change nothing when their argument is missing. Other methods are not implemented. |
| Segmented.SegmentedControlView.UserSelects | ios/Classes/iOS26SegmentedControlView.swift:158-160 | A tap selects its segment and reports that position. |
| Scaffold.EntryItem | ios/Classes/iOS26ScaffoldManager.swift:60-69 | The title is the label or "Tab i+1". The image comes from the icon or "circle". The selected image comes from the selected icon, else the icon name. Tag 0, no badge. |
| Scaffold.SelectedImageDefaults | ios/Classes/iOS26ScaffoldManager.swift:62-63 | Without a selected icon both states show the same image. Without an icon there is an image iff the system has "circle". |
| Scaffold.EntryItems | ios/Classes/iOS26ScaffoldManager.swift:59-72 | There is one item per entry, entry i giving `EntryItem` at i. |
| Scaffold.BuildItems | ios/Classes/iOS26ScaffoldManager.swift:59-72 | The item loop yields exactly `EntryItems`. |
| Scaffold.TabBarController.constructor | ios/Classes/iOS26ScaffoldManager.swift:42 | A new controller has no items and index 0. |
| Scaffold.ScaffoldManager.constructor | ios/Classes/iOS26ScaffoldManager.swift:11-19 | The manager starts without a controller. |
| Scaffold.ScaffoldManager.SetupTabBar | ios/Classes/iOS26ScaffoldManager.swift:32-82 | Without a tab list or index the call fails with "INVALID_ARGUMENTS" and nothing changes. Otherwise the controller is created once and reused, its items become `EntryItems` (taking the bar assignment at :75 as storing them), and it takes the index as given. |
| Scaffold.ScaffoldManager.SetSelectedIndex | ios/Classes/iOS26ScaffoldManager.swift:89-97 | A missing index fails with "INVALID_ARGUMENTS". Otherwise an existing controller takes it and keeps its items. |
| Scaffold.ScaffoldManager.TabSelected | ios/Classes/iOS26ScaffoldManager.swift:103-106 | The callback reports the controller's selected index. |

## Left out

- Method channels, platform-view factories and codecs are not modelled; each handler is a method taking the decoded arguments. Calls back to Flutter are return values.
- Layout is not modelled: constraints, frames, appearances, gradients, transparency, trait changes and the intrinsic-size query (`getIntrinsicSize`, which measures the bar).
- Colours are modelled as integer channels; the division by 255.0 into floating-point components is not.
- The segmented control's `iconSize` symbol configuration is not modelled; it only resizes images. So are the diagnostic message it prints for a symbol that has no image, the haptic feedback on a change, the tab bar's `spacerFlags` (decoded and unused) and `applyMinimizeBehavior` (empty).
- UIKit's behaviour for an out-of-range `selectedIndex` on a tab-bar controller or segmented control is not modelled: the index is stored as given.
- Inserting a segment past the end is modelled as appending. This is UIKit's clamping, which the source relies on when a symbol is skipped.
- The native tab bar manager's window swapping, its cross-dissolve transition and the moving of the Flutter view between tabs are not modelled. Only the decision to move it is. The manager's search controller configuration is not modelled either. Whether a Flutter view controller, a window and a Flutter view exist is an input.
- The search callbacks are not modelled: `showSearch`, `hideSearch`, `updateSearchQuery`, and search-text updates, submission and cancellation. They only forward text or toggle the search controller's activity.
- The placeholder content views (`TabContentViewController`, `SearchTabViewController`, `FlutterTabViewController`) are not modelled beyond their tab index. Neither is the search tab bar platform-view wrapper, which only picks the controller by OS version.
- The scaffold manager's method-name dispatcher, which answers "not implemented" for other names, is not modelled; its two handlers are. Its iOS 26 appearance is not modelled either.
- The slider and switch views and the plugin registration are not part of this model.
- Scaffold.ScaffoldManager.SetupTabBar: the model takes the assignment of the new items to the controller's own tab bar (iOS26ScaffoldManager.swift:75) as storing the items on the controller and answering success. UIKit documents that the items of a bar a `UITabBarController` manages may not be set directly, and raises an exception when they are. The model does not capture that exception.
- TabBar.TabBarPlatformView.SetItems: an out-of-range `selectedIndex` leaves the model with no selected item, while the Swift code leaves `bar.selectedItem` alone. The model assumes UIKit drops a selected item that is no longer among the bar's new items.
- TabBar.Items: its own contract states only the length; what each item is is stated by `TabBar.ItemAt` and `TabBar.BuildItems`.

## Findings

| source | as written | input that shows it | evidently intended | confidence | as-written member | corrected member |
|---|---|---|---|---|---|---|
| ios/Classes/iOS26ToolbarPlatformView.swift:183-236 | `hasFlexible` counts every action with `spacerAfter == 2`, but `foundFlexible` flips only inside `if let btn = button`. A flexible request on an action with no icon and no title never moves the split, so every later button goes to the left group. | actions `[{spacerAfter: 2}, {icon: "gear"}]`: the gear button is in the left group and the right group is empty | Buttons after the first flexible request go to the right group, whether or not the requesting action made a button | medium (not executed) | Toolbar.AsWrittenMisplacesButtons | Toolbar.GroupSplit |

The as-written grouping is `Toolbar.GroupItemsAsWritten`. The view computes
it, through `Toolbar.GroupActions`, as the Swift loop does.
`Toolbar.AsWrittenMisplacesLaterButtons` shows the misplacement for every
such input. The corrected grouping is `Toolbar.GroupItems`, whose split is
proved by `Toolbar.GroupSplit`. `Toolbar.AsWrittenAgreesWhenMarkerMakesButton`
shows the two agree whenever the first flexible request comes from an
action that makes a button.

Two differences between the controls are kept as written:

- The native tab bar manager records the FIRST search tab
  (ios/Classes/iOS26NativeTabBarManager.swift:81). The search tab bar
  controller records the LAST one
  (ios/Classes/iOS26SearchTabBarController.swift:71-73).
- On the standalone tab bar below iOS 26, a search item keeps UIKit's
  default tag 0 (ios/Classes/iOS26TabBarPlatformView.swift:111-113).
  Selection reports positions, not tags, so nothing visible depends on it
  (`TabBar.ReportedIndexIsTag`).

=== FILE: argb.dfy ===
/** Decoding of a colour packed as a 32-bit ARGB integer, as the tab bar and
    the segmented control do before building a colour. Only the integer
    channel extraction is modelled; the division by 255 into a floating-point
    component is not. */
module Argb {

  /** The four 8-bit channels of a packed colour. */
  datatype Channels = Channels(alpha: int, red: int, green: int, blue: int)

  predicate ValidChannels(c: Channels) {
    0 <= c.alpha < 256 && 0 <= c.red < 256 && 0 <= c.green < 256 && 0 <= c.blue < 256
  }

  /** `(argb >> shift) & 0xFF` on a two's-complement integer: the arithmetic
      right shift is floor division by 2^shift, and masking with 0xFF is the
      non-negative remainder modulo 256. Dafny's `/` and `%` with a positive
      divisor are exactly these. */
  function Channel(argb: int, divisor: nat): (c: int)
    requires divisor > 0
    ensures 0 <= c < 256
  {
    (argb / divisor) % 256
  }

  /** The channels of a packed colour: alpha in bits 24-31, red in 16-23,
      green in 8-15, blue in 0-7. */
  function ColorFromArgb(argb: int): (c: Channels)
    ensures ValidChannels(c)
  {
    Channels(Channel(argb, 0x100_0000), Channel(argb, 0x1_0000), Channel(argb, 0x100), Channel(argb, 1))
  }

  /** The packed form of four channels. */
  function Pack(c: Channels): int {
    ((c.alpha * 256 + c.red) * 256 + c.green) * 256 + c.blue
  }

  lemma DivModUnique(x: int, q: int, r: int, d: int)
    requires d > 0 && 0 <= r < d && x == q * d + r
    ensures x / d == q && x % d == r
  {
    var q', r' := x / d, x % d;
    assert (q - q') * d == r' - r;
    if q > q' {
      MulAtLeast(q - q', d);
    } else if q < q' {
      MulAtLeast(q' - q, d);
    }
  }

  lemma MulAtLeast(a: int, d: int)
    requires a >= 1 && d > 0
    ensures a * d >= d
  {
  }

  lemma DivDiv(x: int, d: int, e: int)
    requires d > 0 && e > 0
    ensures x / d / e == x / (d * e)
  {
    var q := x / d / e;
    var r := x / d % e;
    var s := x % d;
    assert x / d == q * e + r;
    assert x == (q * e + r) * d + s;
    assert x == q * (d * e) + (r * d + s);
    assert 0 <= r * d + s < d * e by {
      assert r * d <= (e - 1) * d;
    }
    DivModUnique(x, q, r * d + s, d * e);
  }

  /** Unpacking a packed colour gives back its channels. */
  lemma {:induction false} UnpackPack(c: Channels)
    requires ValidChannels(c)
    ensures ColorFromArgb(Pack(c)) == c
  {
    var x := Pack(c);
    var x1 := (c.alpha * 256 + c.red) * 256 + c.green;
    var x2 := c.alpha * 256 + c.red;
    DivModUnique(x, x1, c.blue, 256);
    DivModUnique(x1, x2, c.green, 256);
    DivModUnique(x2, c.alpha, c.red, 256);
    DivModUnique(c.alpha, 0, c.alpha, 256);
    DivDiv(x, 256, 256);
    DivDiv(x, 256 * 256, 256);
    assert x / 1 == x;
  }

  /** Packing the channels of any integer gives back its low 32 bits: the
      decoder reads every bit of a 32-bit colour and nothing above it. */
  lemma {:induction false} PackUnpack(argb: int)
    ensures Pack(ColorFromArgb(argb)) == argb % 0x1_0000_0000
  {
    var c := ColorFromArgb(argb);
    var q1 := argb / 256;
    var q2 := q1 / 256;
    var q3 := q2 / 256;
    DivDiv(argb, 256, 256);
    DivDiv(argb, 256 * 256, 256);
    assert argb / 1 == argb;
    assert c.blue == argb % 256 && c.green == q1 % 256 && c.red == q2 % 256 && c.alpha == q3 % 256;
    assert argb == q1 * 256 + c.blue;
    assert q1 == q2 * 256 + c.green;
    assert q2 == q3 * 256 + c.red;
    assert q3 == (q3 / 256) * 256 + c.alpha;
    assert argb == (q3 / 256) * 0x1_0000_0000 + Pack(c);
    assert 0 <= Pack(c) < 0x1_0000_0000;
    DivModUnique(argb, q3 / 256, Pack(c), 0x1_0000_0000);
  }
}

=== FILE: blur.dfy ===
/** The blur view platform view: a visual-effect view whose blur style is
    named by a string, on creation and by `updateBlurStyle`. */
module Blur {
  import opened Common

  /** The blur styles the view uses: the five system materials (iOS 13 and
      later) and the two styles of older systems. */
  datatype BlurStyle =
    | SystemUltraThinMaterial
    | SystemThinMaterial
    | SystemMaterial
    | SystemThickMaterial
    | SystemChromeMaterial
    | Light
    | Dark

  /** The name of each material, as the channel spells it. */
  function MaterialName(s: BlurStyle): Option<string> {
    match s
    case SystemUltraThinMaterial => Some("systemUltraThinMaterial")
    case SystemThinMaterial => Some("systemThinMaterial")
    case SystemMaterial => Some("systemMaterial")
    case SystemThickMaterial => Some("systemThickMaterial")
    case SystemChromeMaterial => Some("systemChromeMaterial")
    case Light => None
    case Dark => None
  }

  /** `parseBlurStyle`: from iOS 13 on, a known name gives its material and
      any other name the ultra-thin material; before iOS 13 the thick and
      chrome materials fall back to the dark style and every other name to
      the light style. */
  function ParseBlurStyle(name: string, p: Platform): (s: BlurStyle)
    ensures Available(p, 13) ==> MaterialName(s).Some?
    ensures Available(p, 13) && name !in KnownNames() ==> s == SystemUltraThinMaterial
    ensures !Available(p, 13) ==>
      s == (if name == "systemThickMaterial" || name == "systemChromeMaterial" then Dark else Light)
  {
    var modern := Available(p, 13);
    match name
    case "systemUltraThinMaterial" => if modern then SystemUltraThinMaterial else Light
    case "systemThinMaterial" => if modern then SystemThinMaterial else Light
    case "systemMaterial" => if modern then SystemMaterial else Light
    case "systemThickMaterial" => if modern then SystemThickMaterial else Dark
    case "systemChromeMaterial" => if modern then SystemChromeMaterial else Dark
    case _ => if modern then SystemUltraThinMaterial else Light
  }

  function KnownNames(): set<string> {
    {"systemUltraThinMaterial", "systemThinMaterial", "systemMaterial", "systemThickMaterial", "systemChromeMaterial"}
  }

  /** From iOS 13 on, parsing is the inverse of naming: a known name gives
      the material of that name, and every material's name parses back to
      it. */
  lemma {:induction false} ParseIsInverseOfName(p: Platform, name: string, s: BlurStyle)
    requires Available(p, 13)
    ensures name in KnownNames() ==> MaterialName(ParseBlurStyle(name, p)) == Some(name)
    ensures MaterialName(s).Some? ==> ParseBlurStyle(MaterialName(s).value, p) == s
  {
    match s
    case SystemUltraThinMaterial =>
    case SystemThinMaterial =>
    case SystemMaterial =>
    case SystemThickMaterial =>
    case SystemChromeMaterial =>
    case Light =>
    case Dark =>
  }

  class BlurViewPlatformView {
    const platform: Platform
    /** The effect the view shows. */
    var effect: BlurStyle

    /** Creation: the named style, or the ultra-thin material when no name is
        given. */
    constructor (blurStyle: Option<string>, platform: Platform)
      ensures this.platform == platform
      ensures effect == (if blurStyle.Some? then ParseBlurStyle(blurStyle.value, platform) else SystemUltraThinMaterial)
    {
      this.platform := platform;
      effect := if blurStyle.Some? then ParseBlurStyle(blurStyle.value, platform) else SystemUltraThinMaterial;
    }

    /** The channel handler: `updateBlurStyle` with a style name applies it;
        without one it fails with "INVALID_ARGS" and keeps the effect; any
        other method is not implemented. */
    method HandleMethodCall(name: string, blurStyle: Option<string>) returns (reply: Reply)
      modifies this`effect
      ensures name == "updateBlurStyle" && blurStyle.Some? ==>
        reply == Success && effect == ParseBlurStyle(blurStyle.value, platform)
      ensures name == "updateBlurStyle" && blurStyle.None? ==>
        reply == Failure("INVALID_ARGS") && effect == old(effect)
      ensures name != "updateBlurStyle" ==> reply == NotImplemented && effect == old(effect)
    {
      if name == "updateBlurStyle" {
        if blurStyle.Some? {
          effect := ParseBlurStyle(blurStyle.value, platform);
          reply := Success;
        } else {
          reply := Failure("INVALID_ARGS");
        }
      } else {
        reply := NotImplemented;
      }
    }
  }
}

=== FILE: common.dfy ===
/** Values shared by the native controls: optional values, the reply a
    method-channel handler sends back, the platform the code runs on, and the
    tab-bar item that several controls build. */
module Common {

  datatype Option<+T> = None | Some(value: T) {
    function GetOr(default: T): T {
      match this
      case Some(v) => v
      case None => default
    }
  }

  /** What a channel handler answers: nil, a typed error, or
      "method not implemented". */
  datatype Reply = Success | Failure(code: string) | NotImplemented

  /** A system-symbol image, identified by its symbol name. */
  datatype Image = SystemImage(name: string)

  /** The platform a control runs on: the major OS version that `#available`
      checks test, and the set of symbol names the system can draw. */
  datatype Platform = Platform(osMajor: nat, symbols: set<string>)

  predicate Available(p: Platform, major: nat) {
    p.osMajor >= major
  }

  /** The system image for a symbol name, when the system knows the symbol. */
  function Resolve(p: Platform, name: string): (r: Option<Image>)
    ensures r.Some? <==> name in p.symbols
    ensures r.Some? ==> r.value.name == name
  {
    if name in p.symbols then Some(SystemImage(name)) else None
  }

  /** A tab-bar item: either the system search item or an item built from a
      title and images. A system item with no title shows the system's own
      caption. */
  datatype ItemKind = SystemSearch | Custom

  datatype TabItem = TabItem(
    kind: ItemKind,
    title: Option<string>,
    image: Option<Image>,
    selectedImage: Option<Image>,
    tag: int,
    badge: Option<string>)

  function Max(a: int, b: int): (m: int)
    ensures m >= a && m >= b && (m == a || m == b)
  {
    if a >= b then a else b
  }

  // ---------------------------------------------------------------------
  // Decimal rendering of integers, as string interpolation prints them.

  function DigitChar(d: nat): (c: char)
    requires d < 10
    ensures '0' <= c <= '9' && c as int - '0' as int == d
  {
    ('0' as int + d) as char
  }

  predicate AllDigits(s: string) {
    forall k :: 0 <= k < |s| ==> '0' <= s[k] <= '9'
  }

  /** The value a string of decimal digits denotes. */
  function DecimalValue(s: string): nat
    requires AllDigits(s)
  {
    if s == [] then 0
    else DecimalValue(s[..|s| - 1]) * 10 + (s[|s| - 1] as int - '0' as int)
  }

  /** The decimal digits of n, most significant first, without leading zeros. */
  function DecimalString(n: nat): string
  {
    if n < 10 then [DigitChar(n)] else DecimalString(n / 10) + [DigitChar(n % 10)]
  }

  /** Printing a number and reading the digits back gives the number; the
      digits have no leading zero; a number below 100 takes at most two
      digits. */
  lemma {:induction false} DecimalRoundTrip(n: nat)
    ensures AllDigits(DecimalString(n))
    ensures DecimalValue(DecimalString(n)) == n
    ensures 1 <= |DecimalString(n)|
    ensures n > 0 ==> DecimalString(n)[0] != '0'
    ensures n < 100 ==> |DecimalString(n)| <= 2
  {
    var s := DecimalString(n);
    if n >= 10 {
      DecimalRoundTrip(n / 10);
      var t := DecimalString(n / 10);
      assert s == t + [DigitChar(n % 10)];
      assert s[..|s| - 1] == t;
      assert n < 100 ==> n / 10 < 10;
    }
  }

  // ---------------------------------------------------------------------
  // The two formatting rules every tab bar repeats.

  /** Title of a tab that has no label: "Tab " and the 1-based position. */
  function FallbackTitle(i: nat): (t: string)
    ensures |t| > 4 && t[..4] == "Tab "
    ensures AllDigits(t[4..]) && DecimalValue(t[4..]) == i + 1 && t[4] != '0'
  {
    DecimalRoundTrip(i + 1);
    var t := "Tab " + DecimalString(i + 1);
    assert t[4..] == DecimalString(i + 1);
    t
  }

  /** Badge text for an optional count: no badge for an absent or
      non-positive count, "99+" above 99, the decimal count otherwise. */
  function BadgeText(count: Option<int>): (r: Option<string>)
    ensures r.None? <==> (count.None? || count.value <= 0)
    ensures count.Some? && count.value > 99 <==> r == Some("99+")
    ensures count.Some? && 0 < count.value <= 99 ==>
      r.Some? && 1 <= |r.value| <= 2 && AllDigits(r.value) && DecimalValue(r.value) == count.value
      && r.value[0] != '0'
  {
    match count
    case None => None
    case Some(c) =>
      if c <= 0 then None
      else if c > 99 then Some("99+")
      else DecimalRoundTrip(c); Some(DecimalString(c))
  }

  /** Two counts that show a badge show the same badge exactly when both are
      above 99 or both are equal: the rendering loses nothing below 100. */
  lemma BadgeTextDistinguishes(a: int, b: int)
    requires 0 < a && 0 < b
    ensures BadgeText(Some(a)) == BadgeText(Some(b)) <==> (a == b || (a > 99 && b > 99))
  {
    if a <= 99 && b <= 99 && BadgeText(Some(a)) == BadgeText(Some(b)) {
      assert DecimalValue(BadgeText(Some(a)).value) == a;
    }
  }
}

=== FILE: native_tabs.dfy ===
/** The app-level native tab bar manager (iOS 26 and later): it parses tab
    entries, builds one view controller per tab inside a tab-bar controller
    it creates once, tracks the first search tab, rewrites badges in place
    and decides when the Flutter view follows a tab selection. Window and
    root-view-controller swapping, the embedding itself and the search
    controller's callbacks are not modelled; whether a Flutter view
    controller and a window exist is given as input. */
module NativeTabs {
  import opened Common

  /** One decoded entry of the `tabs` array. */
  datatype TabData = TabData(title: Option<string>, sfSymbol: Option<string>, isSearch: Option<bool>, badgeCount: Option<int>)

  /** A parsed tab. */
  datatype TabConfig = TabConfig(title: string, sfSymbol: Option<string>, isSearchTab: bool, badgeCount: Option<int>)

  /** An entry becomes a tab only with a string title; `isSearch` defaults to
      false and the other fields stay absent when missing. */
  function ParseTab(d: TabData): (c: Option<TabConfig>)
    ensures c.Some? <==> d.title.Some?
    ensures c.Some? ==>
      && c.value.title == d.title.value
      && c.value.sfSymbol == d.sfSymbol
      && c.value.isSearchTab == (d.isSearch == Some(true))
      && c.value.badgeCount == d.badgeCount
  {
    if d.title.None? then None
    else Some(TabConfig(d.title.value, d.sfSymbol, d.isSearch.GetOr(false), d.badgeCount))
  }

  /** The `compactMap` over the entries: every entry with a title gives
      one configuration and every other entry is dropped. */
  function ParseTabs(data: seq<TabData>): (r: seq<TabConfig>)
    ensures |r| <= |data|
    ensures (forall k :: 0 <= k < |data| ==> data[k].title.Some?) ==> |r| == |data|
    ensures (forall k :: 0 <= k < |data| ==> data[k].title.None?) ==> r == []
  {
    if data == [] then []
    else match ParseTab(data[0])
      case None => ParseTabs(data[1..])
      case Some(c) => [c] + ParseTabs(data[1..])
  }

  /** Indices of the entries that have a title, in increasing order. */
  function TitledIndices(data: seq<TabData>, from: nat): (r: seq<nat>)
    requires from <= |data|
    ensures forall k :: 0 <= k < |r| ==> from <= r[k] < |data| && data[r[k]].title.Some?
    ensures forall k1, k2 :: 0 <= k1 < k2 < |r| ==> r[k1] < r[k2]
    ensures forall j :: from <= j < |data| && data[j].title.Some? ==> j in r
    decreases |data| - from
  {
    if from == |data| then []
    else if data[from].title.Some? then [from] + TitledIndices(data, from + 1)
    else TitledIndices(data, from + 1)
  }

  /** Parsing drops the entries without a title and keeps the others, in
      their order: the k-th tab is the k-th titled entry, parsed. */
  lemma {:induction false} ParseTabsKeepsTitled(data: seq<TabData>, from: nat)
    requires from <= |data|
    ensures |ParseTabs(data[from..])| == |TitledIndices(data, from)|
    ensures forall k :: 0 <= k < |ParseTabs(data[from..])| ==>
      Some(ParseTabs(data[from..])[k]) == ParseTab(data[TitledIndices(data, from)[k]])
    decreases |data| - from
  {
    if from < |data| {
      ParseTabsKeepsTitled(data, from + 1);
      var rest := ParseTabs(data[from + 1..]);
      assert data[from..][1..] == data[from + 1..];
      assert data[from..][0] == data[from];
      if data[from].title.Some? {
        assert ParseTabs(data[from..]) == [ParseTab(data[from]).value] + rest;
        assert TitledIndices(data, from) == [from] + TitledIndices(data, from + 1);
      } else {
        assert ParseTabs(data[from..]) == rest;
        assert TitledIndices(data, from) == TitledIndices(data, from + 1);
      }
    }
  }

  /** The first search tab's index, or -1 when there is none. */
  function FirstSearchIndex(tabs: seq<TabConfig>): (r: int)
    ensures -1 <= r < |tabs|
    ensures r == -1 <==> forall k :: 0 <= k < |tabs| ==> !tabs[k].isSearchTab
    ensures r >= 0 ==> tabs[r].isSearchTab && forall k :: 0 <= k < r ==> !tabs[k].isSearchTab
  {
    if tabs == [] then -1
    else if tabs[0].isSearchTab then 0
    else
      var r := FirstSearchIndex(tabs[1..]);
      if r == -1 then -1 else r + 1
  }

  /** A tab's view controller: a search tab is a navigation controller around
      the search screen, any other tab hosts Flutter content. */
  datatype HostedTab = FlutterTab(tabIndex: int, item: TabItem) | SearchTab(tabIndex: int, item: TabItem)

  /** The controller of tab `index`. A search tab gets the system search item
      tagged with its index, titled only by a non-empty title, and no badge.
      Any other tab gets its title, the image of its symbol, its index as tag
      and the badge its count calls for. */
  function HostedTabFor(c: TabConfig, index: nat, p: Platform): (h: HostedTab)
    ensures h.tabIndex == index && h.item.tag == index
    ensures h.SearchTab? <==> c.isSearchTab
    ensures c.isSearchTab ==>
      && h.item.kind == SystemSearch
      && h.item.title == (if c.title != "" then Some(c.title) else None)
      && h.item.badge == None
    ensures !c.isSearchTab ==>
      && h.item.kind == Custom
      && h.item.title == Some(c.title)
      && h.item.image == h.item.selectedImage
      && h.item.image == (if c.sfSymbol.Some? then Resolve(p, c.sfSymbol.value) else None)
      && h.item.badge == BadgeText(c.badgeCount)
  {
    if c.isSearchTab then
      SearchTab(index, TabItem(SystemSearch, if c.title != "" then Some(c.title) else None, None, None, index, None))
    else
      var image := if c.sfSymbol.Some? then Resolve(p, c.sfSymbol.value) else None;
      FlutterTab(index, TabItem(Custom, Some(c.title), image, image, index, BadgeText(c.badgeCount)))
  }

  /** The controllers of all tabs. */
  method BuildViewControllers(tabs: seq<TabConfig>, p: Platform) returns (controllers: seq<HostedTab>)
    ensures |controllers| == |tabs|
    ensures forall i :: 0 <= i < |tabs| ==> controllers[i] == HostedTabFor(tabs[i], i, p)
  {
    controllers := [];
    for index := 0 to |tabs|
      invariant |controllers| == index
      invariant forall i :: 0 <= i < index ==> controllers[i] == HostedTabFor(tabs[i], i, p)
    {
      var config := tabs[index];
      if config.isSearchTab {
        var item := TabItem(SystemSearch, None, None, None, index, None);
        if config.title != "" {
          item := item.(title := Some(config.title));
        }
        controllers := controllers + [SearchTab(index, item)];
      } else {
        var image: Option<Image> := None;
        if config.sfSymbol.Some? {
          image := Resolve(p, config.sfSymbol.value);
        }
        var item := TabItem(Custom, Some(config.title), image, image, index, None);
        if config.badgeCount.Some? && config.badgeCount.value > 0 {
          var count := config.badgeCount.value;
          item := item.(badge := Some(if count > 99 then "99+" else DecimalString(count)));
        } else {
          item := item.(badge := None);
        }
        controllers := controllers + [FlutterTab(index, item)];
      }
    }
  }

  function WithBadge(h: HostedTab, badge: Option<string>): HostedTab {
    match h
    case FlutterTab(i, item) => FlutterTab(i, item.(badge := badge))
    case SearchTab(i, item) => SearchTab(i, item.(badge := badge))
  }

  /** The controllers after `setBadgeCounts`: those that have a count get
      its badge, search tabs included; the others keep theirs. */
  function ApplyBadges(controllers: seq<HostedTab>, counts: seq<Option<int>>): (r: seq<HostedTab>)
    ensures |r| == |controllers|
    ensures forall i :: 0 <= i < |r| ==>
      r[i].item.badge == (if i < |counts| then BadgeText(counts[i]) else controllers[i].item.badge)
    ensures forall i :: 0 <= i < |r| ==> r[i] == WithBadge(controllers[i], r[i].item.badge)
  {
    seq(|controllers|, i requires 0 <= i < |controllers| =>
      if i < |counts| then WithBadge(controllers[i], BadgeText(counts[i])) else controllers[i])
  }

  /** A badge update agrees with rebuilding the tab from the new count for
      every regular tab it covers; a covered search tab gets a badge, which
      building it never gives; an uncovered tab keeps its badge. */
  lemma BadgeUpdateOnTabs(tabs: seq<TabConfig>, counts: seq<Option<int>>, p: Platform, i: nat)
    requires i < |tabs|
    ensures
      var built := seq(|tabs|, k requires 0 <= k < |tabs| => HostedTabFor(tabs[k], k, p));
      var updated := ApplyBadges(built, counts);
      && (i < |counts| && !tabs[i].isSearchTab ==>
            updated[i] == HostedTabFor(tabs[i].(badgeCount := counts[i]), i, p))
      && (i < |counts| && tabs[i].isSearchTab ==>
            updated[i].item.badge == BadgeText(counts[i]) && built[i].item.badge.None?)
      && (i >= |counts| ==> updated[i] == built[i])
  {
  }

  /** A tab-bar controller: its view controllers and selected index. An index
      outside the controllers is stored as given; what the system then shows
      is not modelled. */
  class TabBarController {
    var viewControllers: seq<HostedTab>
    var selectedIndex: int

    constructor ()
      ensures viewControllers == [] && selectedIndex == 0
    {
      viewControllers, selectedIndex := [], 0;
    }

    /** The controller shown, when the selected index names one. */
    function SelectedViewController(): (h: Option<HostedTab>)
      reads this
      ensures h.Some? <==> 0 <= selectedIndex < |viewControllers|
      ensures h.Some? ==> h.value == viewControllers[selectedIndex]
    {
      if 0 <= selectedIndex < |viewControllers| then Some(viewControllers[selectedIndex]) else None
    }
  }

  /** What the host offers: a Flutter view controller, and a window it is
      shown in. */
  datatype Host = Host(hasFlutterViewController: bool, hasWindow: bool)

  class NativeTabBarManager {
    const platform: Platform
    var tabBarController: TabBarController?
    var tabConfigurations: seq<TabConfig>
    var searchTabIndex: int
    var isEnabled: bool

    constructor (platform: Platform)
      ensures this.platform == platform
      ensures tabBarController == null && tabConfigurations == [] && searchTabIndex == -1 && !isEnabled
    {
      this.platform := platform;
      tabBarController, tabConfigurations, searchTabIndex, isEnabled := null, [], -1, false;
    }

    /** `enableNativeTabBar`: without a Flutter view controller nothing
        happens. Otherwise the tab-bar controller is created if there is none
        and reused if there is one; the tabs and the first search index are
        stored; the controller gets one view controller per tab and the
        requested index; the bar counts as enabled once a window shows it. */
    method EnableNativeTabBar(tabs: seq<TabConfig>, selectedIndex: int, host: Host)
      modifies this, tabBarController
      ensures !host.hasFlutterViewController ==>
        && tabBarController == old(tabBarController)
        && tabConfigurations == old(tabConfigurations) && searchTabIndex == old(searchTabIndex)
        && isEnabled == old(isEnabled)
        && (tabBarController != null ==> unchanged(tabBarController))
      ensures host.hasFlutterViewController ==>
        && tabBarController != null
        && (old(tabBarController) != null ==> tabBarController == old(tabBarController))
        && (old(tabBarController) == null ==> fresh(tabBarController))
        && tabConfigurations == tabs
        && searchTabIndex == FirstSearchIndex(tabs)
        && |tabBarController.viewControllers| == |tabs|
        && (forall i :: 0 <= i < |tabs| ==> tabBarController.viewControllers[i] == HostedTabFor(tabs[i], i, platform))
        && tabBarController.selectedIndex == selectedIndex
        && isEnabled == (host.hasWindow || old(isEnabled))
    {
      if !host.hasFlutterViewController {
        return;
      }
      if tabBarController == null {
        tabBarController := new TabBarController();
      }
      var tabBar := tabBarController;
      tabConfigurations := tabs;
      searchTabIndex := FirstSearchIndex(tabs);
      var controllers := BuildViewControllers(tabs, platform);
      tabBar.viewControllers := controllers;
      tabBar.selectedIndex := selectedIndex;
      if host.hasWindow {
        isEnabled := true;
      }
    }

    /** The `enableNativeTabBar` call: without a `tabs` array it fails with
        "invalid_args" and nothing changes; otherwise the entries are parsed
        and the selected index defaults to 0. */
    method HandleEnable(tabsData: Option<seq<TabData>>, selectedIndex: Option<int>, host: Host) returns (reply: Reply)
      modifies this, tabBarController
      ensures tabsData.None? ==> reply == Failure("invalid_args") && unchanged(this)
      ensures tabsData.None? && tabBarController != null ==> unchanged(tabBarController)
      ensures tabsData.Some? ==> reply == Success
      ensures tabsData.Some? && !host.hasFlutterViewController ==>
        && tabBarController == old(tabBarController)
        && tabConfigurations == old(tabConfigurations) && searchTabIndex == old(searchTabIndex)
        && isEnabled == old(isEnabled)
        && (tabBarController != null ==> unchanged(tabBarController))
      ensures tabsData.Some? && host.hasFlutterViewController ==>
        var tabs := ParseTabs(tabsData.value);
        && tabBarController != null
        && (old(tabBarController) != null ==> tabBarController == old(tabBarController))
        && (old(tabBarController) == null ==> fresh(tabBarController))
        && tabConfigurations == tabs
        && searchTabIndex == FirstSearchIndex(tabs)
        && |tabBarController.viewControllers| == |tabs|
        && (forall i :: 0 <= i < |tabs| ==> tabBarController.viewControllers[i] == HostedTabFor(tabs[i], i, platform))
        && tabBarController.selectedIndex == selectedIndex.GetOr(0)
        && isEnabled == (host.hasWindow || old(isEnabled))
    {
      if tabsData.None? {
        return Failure("invalid_args");
      }
      var tabs := ParseTabs(tabsData.value);
      EnableNativeTabBar(tabs, selectedIndex.GetOr(0), host);
      reply := Success;
    }

    /** `disableNativeTabBar`: with a Flutter view controller in a window the
        bar is disabled and the tab-bar controller dropped; otherwise nothing
        changes. */
    method DisableNativeTabBar(host: Host)
      modifies this
      ensures host.hasFlutterViewController && host.hasWindow ==> !isEnabled && tabBarController == null
      ensures !(host.hasFlutterViewController && host.hasWindow) ==>
        isEnabled == old(isEnabled) && tabBarController == old(tabBarController)
      ensures tabConfigurations == old(tabConfigurations) && searchTabIndex == old(searchTabIndex)
    {
      if !(host.hasFlutterViewController && host.hasWindow) {
        return;
      }
      isEnabled := false;
      tabBarController := null;
    }

    /** `setSelectedIndex`: a missing index fails with "invalid_args";
        otherwise the controller, when there is one, gets the index. */
    method SetSelectedIndex(index: Option<int>) returns (reply: Reply)
      modifies tabBarController
      ensures index.None? ==> reply == Failure("invalid_args")
      ensures index.None? && tabBarController != null ==> unchanged(tabBarController)
      ensures index.Some? ==> reply == Success
      ensures index.Some? && tabBarController != null ==>
        && tabBarController.selectedIndex == index.value
        && tabBarController.viewControllers == old(tabBarController.viewControllers)
    {
      if index.None? {
        return Failure("invalid_args");
      }
      if tabBarController != null {
        tabBarController.selectedIndex := index.value;
      }
      reply := Success;
    }

    /** `setBadgeCounts`: a missing array fails with "invalid_args"; otherwise
        each view controller that has a count gets its badge rewritten in
        place. */
    method SetBadgeCounts(badgeCounts: Option<seq<Option<int>>>) returns (reply: Reply)
      modifies tabBarController
      ensures badgeCounts.None? ==> reply == Failure("invalid_args")
      ensures badgeCounts.None? && tabBarController != null ==> unchanged(tabBarController)
      ensures badgeCounts.Some? ==> reply == Success
      ensures badgeCounts.Some? && tabBarController != null ==>
        && tabBarController.viewControllers == ApplyBadges(old(tabBarController.viewControllers), badgeCounts.value)
        && tabBarController.selectedIndex == old(tabBarController.selectedIndex)
    {
      if badgeCounts.None? {
        return Failure("invalid_args");
      }
      var counts := badgeCounts.value;
      var tabBar := tabBarController;
      if tabBar != null {
        ghost var before := tabBar.viewControllers;
        for index := 0 to |tabBar.viewControllers|
          invariant |tabBar.viewControllers| == |before|
          invariant tabBar.selectedIndex == old(tabBar.selectedIndex)
          invariant forall k :: 0 <= k < index ==> tabBar.viewControllers[k] == ApplyBadges(before, counts)[k]
          invariant forall k :: index <= k < |before| ==> tabBar.viewControllers[k] == before[k]
        {
          if index < |counts| {
            var count := counts[index];
            var badge: Option<string> := None;
            if count.Some? && count.value > 0 {
              badge := Some(if count.value > 99 then "99+" else DecimalString(count.value));
            }
            tabBar.viewControllers := tabBar.viewControllers[index := WithBadge(tabBar.viewControllers[index], badge)];
          }
        }
      }
      reply := Success;
    }

    /** The `isEnabled` query: the flag that `EnableNativeTabBar` sets once a
        window shows the bar and `DisableNativeTabBar` clears. */
    method IsEnabled() returns (enabled: bool)
      ensures enabled == isEnabled
    {
      enabled := isEnabled;
    }

    /** `notifyTabSelected`: the index is always reported; the Flutter view
        moves to the selected controller exactly when the index is not the
        search tab's, a Flutter view exists, and the controller shows a
        Flutter tab. */
    method NotifyTabSelected(index: int, hasFlutterView: bool) returns (reported: int, reembed: bool)
      ensures reported == index
      ensures reembed <==>
        && index != searchTabIndex
        && hasFlutterView
        && tabBarController != null
        && tabBarController.SelectedViewController().Some?
        && tabBarController.SelectedViewController().value.FlutterTab?
    {
      reported := index;
      reembed := false;
      if index != searchTabIndex && hasFlutterView && tabBarController != null {
        var selected := tabBarController.SelectedViewController();
        reembed := selected.Some? && selected.value.FlutterTab?;
      }
    }

    /** The delegate callback: the tapped controller's position among the
        controller's view controllers, 0 when it is not among them, is
        handed to `NotifyTabSelected`. */
    method DidSelect(position: nat, hasFlutterView: bool) returns (reported: int, reembed: bool)
      ensures reported == (if tabBarController != null && position < |tabBarController.viewControllers| then position else 0)
      ensures reembed <==>
        && reported != searchTabIndex
        && hasFlutterView
        && tabBarController != null
        && tabBarController.SelectedViewController().Some?
        && tabBarController.SelectedViewController().value.FlutterTab?
    {
      var index := if tabBarController != null && position < |tabBarController.viewControllers| then position else 0;
      reported, reembed := NotifyTabSelected(index, hasFlutterView);
    }
  }
}

=== FILE: scaffold.dfy ===
/** The scaffold manager: a channel handler that owns one tab-bar
    controller, creates it on the first `setupTabBar`, and fills it with an
    item per tab description. */
module Scaffold {
  import opened Common

  /** One tab description of the `tabs` list (its `label`, `icon` and
      `selectedIcon` keys); each key may be missing. */
  datatype TabEntry = TabEntry(caption: Option<string>, icon: Option<string>, selectedIcon: Option<string>)

  const DefaultIcon := "circle"

  /** The item of the tab at `index`: its label or "Tab index+1"; the image
      of its icon, or of "circle" when it names none; the image of its
      selected icon, or of its icon name when it names none. The item keeps
      the default tag 0 and has no badge. */
  function EntryItem(e: TabEntry, index: nat, p: Platform): (item: TabItem)
    ensures item.kind == Custom && item.tag == 0 && item.badge.None?
    ensures item.title == Some(if e.caption.Some? then e.caption.value else FallbackTitle(index))
    ensures item.image == Resolve(p, e.icon.GetOr(DefaultIcon))
    ensures item.selectedImage == Resolve(p, e.selectedIcon.GetOr(e.icon.GetOr(DefaultIcon)))
  {
    var title := e.caption.GetOr(FallbackTitle(index));
    var iconName := e.icon.GetOr(DefaultIcon);
    var selectedIconName := e.selectedIcon.GetOr(iconName);
    TabItem(Custom, Some(title), Resolve(p, iconName), Resolve(p, selectedIconName), 0, None)
  }

  /** Without a selected icon a tab looks the same selected and unselected;
      without any icon it shows the "circle" symbol when the system has it. */
  lemma SelectedImageDefaults(e: TabEntry, index: nat, p: Platform)
    ensures e.selectedIcon.None? ==> EntryItem(e, index, p).selectedImage == EntryItem(e, index, p).image
    ensures e.icon.None? ==> (EntryItem(e, index, p).image.Some? <==> DefaultIcon in p.symbols)
  {
  }

  /** The items of a tab list, one per description, in order. */
  function EntryItems(tabs: seq<TabEntry>, p: Platform): (items: seq<TabItem>)
    ensures |items| == |tabs|
    ensures forall i :: 0 <= i < |tabs| ==> items[i] == EntryItem(tabs[i], i, p)
  {
    seq(|tabs|, i requires 0 <= i < |tabs| => EntryItem(tabs[i], i, p))
  }

  /** `setupTabBar`'s item loop. */
  method BuildItems(tabs: seq<TabEntry>, p: Platform) returns (items: seq<TabItem>)
    ensures items == EntryItems(tabs, p)
  {
    items := [];
    for index := 0 to |tabs|
      invariant |items| == index
      invariant forall i :: 0 <= i < index ==> items[i] == EntryItem(tabs[i], i, p)
    {
      var e := tabs[index];
      var title := if e.caption.Some? then e.caption.value else FallbackTitle(index);
      var iconName := if e.icon.Some? then e.icon.value else DefaultIcon;
      var selectedIconName := if e.selectedIcon.Some? then e.selectedIcon.value else iconName;
      var item := TabItem(Custom, Some(title), Resolve(p, iconName), Resolve(p, selectedIconName), 0, None);
      assert item == EntryItem(e, index, p);
      items := items + [item];
    }
  }

  /** The managed tab-bar controller: its items and its selected index, as
      the channel last set them. */
  class TabBarController {
    var items: seq<TabItem>
    var selectedIndex: int

    constructor ()
      ensures items == [] && selectedIndex == 0
    {
      items, selectedIndex := [], 0;
    }
  }

  class ScaffoldManager {
    const platform: Platform
    var tabBarController: TabBarController?

    constructor (platform: Platform)
      ensures this.platform == platform && tabBarController == null
    {
      this.platform := platform;
      tabBarController := null;
    }

    /** `setupTabBar`: without a tab list or a selected index it fails with
        "INVALID_ARGUMENTS" and changes nothing; otherwise it creates the
        controller if there is none (and keeps the existing one if there
        is), replaces its items and stores the index as given. */
    method SetupTabBar(tabs: Option<seq<TabEntry>>, selectedIndex: Option<int>) returns (reply: Reply)
      modifies this`tabBarController, tabBarController
      ensures tabs.None? || selectedIndex.None? ==>
        && reply == Failure("INVALID_ARGUMENTS")
        && tabBarController == old(tabBarController)
        && (tabBarController != null ==> unchanged(tabBarController))
      ensures tabs.Some? && selectedIndex.Some? ==>
        && reply == Success
        && tabBarController != null
        && (old(tabBarController) != null ==> tabBarController == old(tabBarController))
        && (old(tabBarController) == null ==> fresh(tabBarController))
        && tabBarController.items == EntryItems(tabs.value, platform)
        && tabBarController.selectedIndex == selectedIndex.value
    {
      if tabs.None? || selectedIndex.None? {
        return Failure("INVALID_ARGUMENTS");
      }
      if tabBarController == null {
        tabBarController := new TabBarController();
      }
      var items := BuildItems(tabs.value, platform);
      tabBarController.items := items;
      tabBarController.selectedIndex := selectedIndex.value;
      reply := Success;
    }

    /** `setSelectedIndex`: a missing index fails with "INVALID_ARGUMENTS";
        otherwise the index goes to the controller, if there is one. */
    method SetSelectedIndex(index: Option<int>) returns (reply: Reply)
      modifies tabBarController
      ensures index.None? <==> reply == Failure("INVALID_ARGUMENTS")
      ensures index.Some? ==> reply == Success
      ensures tabBarController != null ==>
        && tabBarController.items == old(tabBarController.items)
        && tabBarController.selectedIndex == (if index.Some? then index.value else old(tabBarController.selectedIndex))
    {
      if index.None? {
        return Failure("INVALID_ARGUMENTS");
      }
      if tabBarController != null {
        tabBarController.selectedIndex := index.value;
      }
      reply := Success;
    }

    /** The selection callback reports the controller's selected index; the
        items themselves all carry tag 0 (`EntryItem`), so the index is the
        only position information the callback has. */
    method TabSelected() returns (reported: int)
      requires tabBarController != null
      ensures reported == tabBarController.selectedIndex
    {
      reported := tabBarController.selectedIndex;
    }
  }
}

=== FILE: search_tabs.dfy ===
/** The search tab bar controller (iOS 26 and later): a tab-bar controller
    built from parallel label / symbol / search-flag arrays, whose search
    tabs are wrapped in a navigation controller that carries the search
    controller. The channel and search-controller callbacks are not
    modelled. */
module SearchTabs {
  import opened Common

  /** The decoded creation payload. */
  datatype SearchArgs = SearchArgs(
    labels: Option<seq<string>>,
    sfSymbols: Option<seq<string>>,
    searchFlags: Option<seq<bool>>,
    selectedIndex: Option<int>)

  datatype TabConfiguration = TabConfiguration(title: Option<string>, sfSymbol: Option<string>, isSearch: bool, index: int)

  /** The configuration at position i: bounds-checked lookups of the label,
      symbol and search flag, and the position itself. */
  function ConfigurationAt(labels: seq<string>, symbols: seq<string>, flags: seq<bool>, i: nat): (c: TabConfiguration)
    ensures c.index == i
    ensures c.title == (if i < |labels| then Some(labels[i]) else None)
    ensures c.sfSymbol == (if i < |symbols| then Some(symbols[i]) else None)
    ensures c.isSearch <==> i < |flags| && flags[i]
  {
    TabConfiguration(
      if i < |labels| then Some(labels[i]) else None,
      if i < |symbols| then Some(symbols[i]) else None,
      i < |flags| && flags[i],
      i)
  }

  /** The last search position among the configurations, or `start` when
      there is none. */
  function LastSearchIndex(configs: seq<TabConfiguration>, start: int): (r: int)
    ensures (exists k :: 0 <= k < |configs| && configs[k].isSearch) ==>
      0 <= r < |configs| && configs[r].isSearch && forall k :: r < k < |configs| ==> !configs[k].isSearch
    ensures (forall k :: 0 <= k < |configs| ==> !configs[k].isSearch) ==> r == start
  {
    if configs == [] then start
    else if configs[|configs| - 1].isSearch then |configs| - 1
    else LastSearchIndex(configs[..|configs| - 1], start)
  }

  /** A tab's view controller: a content controller, or a navigation
      controller around one. */
  datatype Controller = Content(tabIndex: int, item: TabItem) | Navigation(root: Controller)

  /** The controller of a configuration: a search tab is the system search
      item, tagged with its index and titled only when a label exists,
      wrapped in a navigation controller; any other tab gets its label or
      "Tab index+1", its symbol's image and its index as tag, unwrapped. */
  function ControllerFor(c: TabConfiguration, p: Platform): (r: Controller)
    requires c.index >= 0
    ensures r.Navigation? <==> c.isSearch
    ensures c.isSearch ==>
      r.root == Content(c.index, TabItem(SystemSearch, c.title, None, None, c.index, None))
    ensures !c.isSearch ==>
      && r.Content? && r.tabIndex == c.index && r.item.tag == c.index && r.item.kind == Custom
      && r.item.title == Some(if c.title.Some? then c.title.value else FallbackTitle(c.index))
      && r.item.image == r.item.selectedImage
      && r.item.image == (if c.sfSymbol.Some? then Resolve(p, c.sfSymbol.value) else None)
  {
    if c.isSearch then
      Navigation(Content(c.index, TabItem(SystemSearch, c.title, None, None, c.index, None)))
    else
      var image := if c.sfSymbol.Some? then Resolve(p, c.sfSymbol.value) else None;
      Content(c.index, TabItem(Custom, Some(c.title.GetOr(FallbackTitle(c.index))), image, image, c.index, None))
  }

  class SearchTabBarController {
    const platform: Platform
    var searchTabIndex: int
    var tabConfigurations: seq<TabConfiguration>
    var selectedIndex: int
    var viewControllers: seq<Controller>
    /** Whether a search controller exists, and whether it is installed on the
        search tab's screen. */
    var hasSearchController: bool
    var searchControllerInstalled: bool

    /** The search index always names a search configuration, and every
        configuration carries its own position. */
    ghost predicate Valid()
      reads this
    {
      && -1 <= searchTabIndex < |tabConfigurations|
      && (searchTabIndex >= 0 ==> tabConfigurations[searchTabIndex].isSearch)
      && forall i :: 0 <= i < |tabConfigurations| ==> tabConfigurations[i].index == i
    }

    /** Creation: the arguments, when given, configure the tabs; the view
        controllers are built later, when the view loads. */
    constructor (args: Option<SearchArgs>, platform: Platform)
      ensures Valid() && this.platform == platform
      ensures viewControllers == [] && !hasSearchController && !searchControllerInstalled
      ensures args.None? ==> tabConfigurations == [] && searchTabIndex == -1 && selectedIndex == 0
      ensures args.Some? ==>
        var labels, symbols := args.value.labels.GetOr([]), args.value.sfSymbols.GetOr([]);
        && |tabConfigurations| == Max(|labels|, |symbols|)
        && (forall i :: 0 <= i < |tabConfigurations| ==>
              tabConfigurations[i] == ConfigurationAt(labels, symbols, args.value.searchFlags.GetOr([]), i))
        && searchTabIndex == LastSearchIndex(tabConfigurations, -1)
        && selectedIndex == args.value.selectedIndex.GetOr(0)
    {
      this.platform := platform;
      searchTabIndex, tabConfigurations, selectedIndex := -1, [], 0;
      viewControllers, hasSearchController, searchControllerInstalled := [], false, false;
      new;
      if args.Some? {
        SetupFromArgs(args.value);
      }
    }

    /** `setupFromArgs`: one configuration per position up to the longer of
        the label and symbol arrays; every search position overwrites the
        search index, so it ends at the last one; the selected index
        defaults to 0. */
    method SetupFromArgs(args: SearchArgs)
      requires searchTabIndex == -1
      modifies this`tabConfigurations, this`searchTabIndex, this`selectedIndex
      ensures Valid()
      ensures
        var labels, symbols := args.labels.GetOr([]), args.sfSymbols.GetOr([]);
        && |tabConfigurations| == Max(|labels|, |symbols|)
        && (forall i :: 0 <= i < |tabConfigurations| ==>
              tabConfigurations[i] == ConfigurationAt(labels, symbols, args.searchFlags.GetOr([]), i))
        && searchTabIndex == LastSearchIndex(tabConfigurations, -1)
        && selectedIndex == args.selectedIndex.GetOr(0)
    {
      var labels := args.labels.GetOr([]);
      var symbols := args.sfSymbols.GetOr([]);
      var searchFlags := args.searchFlags.GetOr([]);
      var count := Max(|labels|, |symbols|);
      var configs: seq<TabConfiguration> := [];
      for i := 0 to count
        invariant |configs| == i
        invariant forall k :: 0 <= k < i ==> configs[k] == ConfigurationAt(labels, symbols, searchFlags, k)
        invariant searchTabIndex == LastSearchIndex(configs, -1)
      {
        var isSearch := i < |searchFlags| && searchFlags[i];
        if isSearch {
          searchTabIndex := i;
        }
        configs := configs + [TabConfiguration(
          if i < |labels| then Some(labels[i]) else None,
          if i < |symbols| then Some(symbols[i]) else None,
          isSearch,
          i)];
        assert configs[..|configs| - 1] == configs[..i];
      }
      tabConfigurations := configs;
      selectedIndex := args.selectedIndex.GetOr(0);
    }

    /** `viewDidLoad`: one controller per configuration, in order; then, when
        there is a search tab, a search controller installed on the search
        tab's screen, which is always a navigation controller. */
    method ViewDidLoad()
      requires Valid()
      modifies this`viewControllers, this`hasSearchController, this`searchControllerInstalled
      ensures Valid()
      ensures |viewControllers| == |tabConfigurations|
      ensures forall i :: 0 <= i < |viewControllers| ==> viewControllers[i] == ControllerFor(tabConfigurations[i], platform)
      ensures forall i :: 0 <= i < |viewControllers| ==> (viewControllers[i].Navigation? <==> tabConfigurations[i].isSearch)
      ensures hasSearchController <==> searchTabIndex >= 0
      ensures searchControllerInstalled <==> searchTabIndex >= 0
    {
      SetupViewControllers();
      if searchTabIndex >= 0 {
        SetupSearchController();
      } else {
        hasSearchController, searchControllerInstalled := false, false;
      }
    }

    method SetupViewControllers()
      requires Valid()
      modifies this`viewControllers
      ensures |viewControllers| == |tabConfigurations|
      ensures forall i :: 0 <= i < |viewControllers| ==> viewControllers[i] == ControllerFor(tabConfigurations[i], platform)
    {
      var controllers: seq<Controller> := [];
      for k := 0 to |tabConfigurations|
        invariant |controllers| == k
        invariant forall i :: 0 <= i < k ==> controllers[i] == ControllerFor(tabConfigurations[i], platform)
      {
        var config := tabConfigurations[k];
        var vc: Controller;
        if config.isSearch {
          var item := TabItem(SystemSearch, None, None, None, config.index, None);
          if config.title.Some? {
            item := item.(title := config.title);
          }
          vc := Content(config.index, item);
        } else {
          var image: Option<Image> := None;
          if config.sfSymbol.Some? {
            image := Resolve(platform, config.sfSymbol.value);
          }
          var title := if config.title.Some? then config.title.value else FallbackTitle(config.index);
          vc := Content(config.index, TabItem(Custom, Some(title), image, image, config.index, None));
        }
        if config.isSearch {
          controllers := controllers + [Navigation(vc)];
        } else {
          controllers := controllers + [vc];
        }
      }
      viewControllers := controllers;
    }

    /** `setupSearchController`: the lookup of the search tab's controller
        stays inside the array, and finds the navigation controller. */
    method SetupSearchController()
      requires Valid() && searchTabIndex >= 0
      requires |viewControllers| == |tabConfigurations|
      requires forall i :: 0 <= i < |viewControllers| ==> viewControllers[i] == ControllerFor(tabConfigurations[i], platform)
      modifies this`hasSearchController, this`searchControllerInstalled
      ensures hasSearchController && searchControllerInstalled
    {
      searchControllerInstalled := false;
      var searchVC := viewControllers[searchTabIndex];
      if searchVC.Navigation? {
        searchControllerInstalled := true;
      }
      hasSearchController := true;
    }

    /** `setSelectedIndex`: a missing index fails with "invalid_args";
        otherwise the index is stored. */
    method SetSelectedIndex(index: Option<int>) returns (reply: Reply)
      modifies this`selectedIndex
      ensures index.None? ==> reply == Failure("invalid_args") && selectedIndex == old(selectedIndex)
      ensures index.Some? ==> reply == Success && selectedIndex == index.value
    {
      if index.None? {
        return Failure("invalid_args");
      }
      selectedIndex := index.value;
      reply := Success;
    }

    /** The delegate callback reports the position of the tapped controller
        among the view controllers, and 0 when it is not among them. */
    method DidSelect(position: nat) returns (reported: int)
      ensures reported == (if position < |viewControllers| then position else 0)
    {
      reported := if position < |viewControllers| then position else 0;
    }
  }
}

=== FILE: segmented.dfy ===
/** The segmented control platform view: segments built from symbol names
    or labels, a selection the channel can move or clear, and the colours,
    enabled state and brightness given on creation. */
module Segmented {
  import opened Common
  import Argb

  /** A segment shows a system image or a title. */
  datatype Segment = ImageSegment(image: Image) | TitleSegment(title: string)

  /** The decoded creation payload; a payload that is not a dictionary has
      every field absent. */
  datatype SegmentedArgs = SegmentedArgs(
    isDark: Option<bool>,
    sfSymbols: Option<seq<string>>,
    iconColor: Option<int>,
    labels: Option<seq<string>>,
    enabled: Option<bool>,
    tintColor: Option<int>,
    selectedIndex: Option<int>)

  /** `UISegmentedControl.noSegment`. */
  const NoSegment := -1

  /** One image segment per symbol the system can draw, in order; unknown
      symbols are skipped. */
  function SymbolSegments(symbols: seq<string>, p: Platform): (segs: seq<Segment>)
    ensures |segs| <= |symbols|
    ensures forall k :: 0 <= k < |segs| ==> segs[k].ImageSegment?
  {
    if symbols == [] then []
    else
      var rest := SymbolSegments(symbols[..|symbols| - 1], p);
      match Resolve(p, symbols[|symbols| - 1])
      case Some(image) => rest + [ImageSegment(image)]
      case None => rest
  }

  /** One title segment per label. */
  function LabelSegments(labels: seq<string>): (segs: seq<Segment>)
    ensures |segs| == |labels|
    ensures forall k :: 0 <= k < |segs| ==> segs[k] == TitleSegment(labels[k])
  {
    seq(|labels|, k requires 0 <= k < |labels| => TitleSegment(labels[k]))
  }

  /** The segments of a payload: a non-empty symbol list wins over the
      labels; with neither, the control has no segments. */
  function Segments(args: SegmentedArgs, p: Platform): (segs: seq<Segment>)
    ensures args.sfSymbols.Some? && args.sfSymbols.value != [] ==>
      |segs| <= |args.sfSymbols.value| && forall k :: 0 <= k < |segs| ==> segs[k].ImageSegment?
    ensures !(args.sfSymbols.Some? && args.sfSymbols.value != []) && args.labels.Some? ==>
      |segs| == |args.labels.value| && forall k :: 0 <= k < |segs| ==> segs[k] == TitleSegment(args.labels.value[k])
    ensures !(args.sfSymbols.Some? && args.sfSymbols.value != []) && args.labels.None? ==> segs == []
  {
    if args.sfSymbols.Some? && args.sfSymbols.value != [] then SymbolSegments(args.sfSymbols.value, p)
    else if args.labels.Some? then LabelSegments(args.labels.value)
    else []
  }

  /** Skipping symbols distributes over concatenation: the segments of a
      list are the segments of its parts, in order. */
  lemma {:induction false} SymbolSegmentsAppend(a: seq<string>, b: seq<string>, p: Platform)
    ensures SymbolSegments(a + b, p) == SymbolSegments(a, p) + SymbolSegments(b, p)
    decreases |b|
  {
    if b == [] {
      assert a + b == a;
    } else {
      var b' := b[..|b| - 1];
      assert (a + b)[..|a + b| - 1] == a + b';
      assert (a + b)[|a + b| - 1] == b[|b| - 1];
      SymbolSegmentsAppend(a, b', p);
    }
  }

  /** A symbol has a segment exactly when it is in the list and the system
      can draw it, and then its segment shows that symbol's image. */
  lemma {:induction false} SymbolSegmentsExactly(symbols: seq<string>, p: Platform, name: string)
    ensures ImageSegment(SystemImage(name)) in SymbolSegments(symbols, p) <==> name in symbols && name in p.symbols
    decreases |symbols|
  {
    if symbols != [] {
      var init := symbols[..|symbols| - 1];
      var last := symbols[|symbols| - 1];
      assert symbols == init + [last];
      SymbolSegmentsExactly(init, p, name);
      assert name in symbols <==> name in init || name == last;
    }
  }

  /** When every symbol can be drawn, segment k shows symbol k. */
  lemma {:induction false} SymbolSegmentsAllKnown(symbols: seq<string>, p: Platform)
    requires forall k :: 0 <= k < |symbols| ==> symbols[k] in p.symbols
    ensures |SymbolSegments(symbols, p)| == |symbols|
    ensures forall k :: 0 <= k < |symbols| ==> SymbolSegments(symbols, p)[k] == ImageSegment(SystemImage(symbols[k]))
    decreases |symbols|
  {
    if symbols != [] {
      SymbolSegmentsAllKnown(symbols[..|symbols| - 1], p);
    }
  }

  /** `createNativeSegmentedControl`'s segment loops. Every insertion asks
      for position `index`, but positions past the end append, so a skipped
      symbol shifts the later ones down. */
  method BuildSegments(args: SegmentedArgs, p: Platform) returns (segs: seq<Segment>)
    ensures segs == Segments(args, p)
  {
    segs := [];
    if args.sfSymbols.Some? && args.sfSymbols.value != [] {
      var symbols := args.sfSymbols.value;
      for index := 0 to |symbols|
        invariant segs == SymbolSegments(symbols[..index], p)
      {
        assert symbols[..index + 1][..index] == symbols[..index];
        var image := Resolve(p, symbols[index]);
        if image.Some? {
          segs := segs + [ImageSegment(image.value)];
        }
      }
      assert symbols[..|symbols|] == symbols;
    } else if args.labels.Some? {
      var labels := args.labels.value;
      for index := 0 to |labels|
        invariant segs == LabelSegments(labels[..index])
      {
        segs := segs + [TitleSegment(labels[index])];
      }
      assert labels[..|labels|] == labels;
    }
  }

  /** The selection after `setSelectedIndex`: an index inside the control
      selects that segment, -1 clears the selection, any other index leaves
      it as it was. */
  function SelectionAfter(current: int, index: int, count: nat): (s: int)
    ensures 0 <= index < count ==> s == index
    ensures index == NoSegment ==> s == NoSegment
    ensures !(0 <= index < count) && index != NoSegment ==> s == current
  {
    if 0 <= index < count then index
    else if index == -1 then NoSegment
    else current
  }

  /** A selection that was a segment or none stays one, and repeating the
      same request changes nothing. */
  lemma SelectionAfterKeepsRange(current: int, index: int, count: nat)
    requires NoSegment <= current < count
    ensures NoSegment <= SelectionAfter(current, index, count) < count
    ensures SelectionAfter(SelectionAfter(current, index, count), index, count) == SelectionAfter(current, index, count)
  {
  }

  /** A channel call the view understands, or any other. */
  datatype SegmentedCall =
    | SetSelectedIndexCall(index: Option<int>)
    | SetBrightnessCall(isDark: Option<bool>)
    | OtherCall(name: string)

  class SegmentedControlView {
    const platform: Platform
    var segments: seq<Segment>
    var selectedSegmentIndex: int
    var isEnabled: bool
    var selectedSegmentTint: Option<Argb.Channels>
    /** The title colour of the symbol segments, set only when symbols are
        used. */
    var iconColor: Option<Argb.Channels>
    var isDark: bool
    /** The interface style forced on the view (true for dark), when one is. */
    var overrideDark: Option<bool>

    /** Creation: segments from the payload; the enabled state, tint and
        selection when given (a negative selection is ignored); the icon
        colour only for symbol segments; the brightness forced from iOS 13
        on. */
    constructor (args: Option<SegmentedArgs>, platform: Platform)
      ensures this.platform == platform
      ensures args.None? ==>
        && segments == [] && selectedSegmentIndex == NoSegment && isEnabled && !isDark
        && selectedSegmentTint.None? && iconColor.None? && overrideDark.None?
      ensures args.Some? ==>
        var a := args.value;
        && segments == Segments(a, platform)
        && isDark == a.isDark.GetOr(false)
        && isEnabled == a.enabled.GetOr(true)
        && selectedSegmentTint == (if a.tintColor.Some? then Some(Argb.ColorFromArgb(a.tintColor.value)) else None)
        && iconColor == (if a.sfSymbols.Some? && a.sfSymbols.value != [] && a.iconColor.Some?
                         then Some(Argb.ColorFromArgb(a.iconColor.value)) else None)
        && selectedSegmentIndex == (if a.selectedIndex.Some? && a.selectedIndex.value >= 0
                                    then a.selectedIndex.value else NoSegment)
        && overrideDark == (if a.isDark.Some? && Available(platform, 13) then a.isDark else None)
    {
      this.platform := platform;
      segments := [];
      selectedSegmentIndex := NoSegment;
      isEnabled := true;
      selectedSegmentTint, iconColor := None, None;
      isDark := false;
      overrideDark := None;
      if args.Some? {
        var a := args.value;
        isDark := a.isDark.GetOr(false);
        var built := BuildSegments(a, platform);
        segments := built;
        if a.sfSymbols.Some? && a.sfSymbols.value != [] && a.iconColor.Some? {
          iconColor := Some(Argb.ColorFromArgb(a.iconColor.value));
        }
        if a.enabled.Some? {
          isEnabled := a.enabled.value;
        }
        if a.tintColor.Some? {
          selectedSegmentTint := Some(Argb.ColorFromArgb(a.tintColor.value));
        }
        if a.selectedIndex.Some? && a.selectedIndex.value >= 0 {
          selectedSegmentIndex := a.selectedIndex.value;
        }
        if a.isDark.Some? && Available(platform, 13) {
          overrideDark := a.isDark;
        }
      }
    }

    /** The channel handler. `setSelectedIndex` moves or clears the
        selection and `setBrightness` records the brightness (forcing the
        style from iOS 13 on); both succeed even when their argument is
        missing, and then change nothing. Other methods are not
        implemented. */
    method HandleMethodCall(call: SegmentedCall) returns (reply: Reply)
      modifies this`selectedSegmentIndex, this`isDark, this`overrideDark
      ensures call.OtherCall? <==> reply == NotImplemented
      ensures !call.OtherCall? ==> reply == Success
      ensures selectedSegmentIndex ==
        (if call.SetSelectedIndexCall? && call.index.Some?
         then SelectionAfter(old(selectedSegmentIndex), call.index.value, |segments|)
         else old(selectedSegmentIndex))
      ensures isDark == (if call.SetBrightnessCall? && call.isDark.Some? then call.isDark.value else old(isDark))
      ensures overrideDark ==
        (if call.SetBrightnessCall? && call.isDark.Some? && Available(platform, 13) then call.isDark else old(overrideDark))
    {
      match call
      case SetSelectedIndexCall(index) =>
        if index.Some? {
          var i := index.value;
          if 0 <= i < |segments| {
            selectedSegmentIndex := i;
          } else if i == -1 {
            selectedSegmentIndex := NoSegment;
          }
        }
        reply := Success;
      case SetBrightnessCall(dark) =>
        if dark.Some? {
          isDark := dark.value;
          if Available(platform, 13) {
            overrideDark := dark;
          }
        }
        reply := Success;
      case OtherCall(_) =>
        reply := NotImplemented;
    }

    /** A tap on a segment selects it, and `segmentChanged` reports the
        selected position. */
    method UserSelects(position: nat) returns (reported: int)
      requires position < |segments|
      modifies this`selectedSegmentIndex
      ensures selectedSegmentIndex == position && reported == position
    {
      selectedSegmentIndex := position;
      reported := selectedSegmentIndex;
    }
  }
}

=== FILE: tab_bar.dfy ===
/** The standalone tab bar platform view: it turns parallel arrays of labels,
    symbol names, search flags and badge counts into tab-bar items, keeps the
    arrays it was last given, and answers the channel calls that replace the
    items, move the selection, restyle the bar and rewrite the badges. */
module TabBar {
  import opened Common
  import Argb

  /** The decoded creation / `setItems` payload. An absent field is `None`;
      a payload that is not a dictionary at all is one whose every field is
      absent. */
  datatype TabBarArgs = TabBarArgs(
    labels: Option<seq<string>>,
    sfSymbols: Option<seq<string>>,
    searchFlags: Option<seq<bool>>,
    badgeCounts: Option<seq<Option<int>>>,
    selectedIndex: Option<int>,
    isDark: Option<bool>,
    tint: Option<int>,
    backgroundColor: Option<int>,
    minimizeBehavior: Option<int>)

  /** The stored minimize behaviour when none is given ("automatic"). */
  const AutomaticMinimize := 3

  /** The decoded `setStyle` payload. */
  datatype StyleArgs = StyleArgs(tint: Option<int>, backgroundColor: Option<int>)

  /** The arrays items are built from. */
  datatype ItemSource = ItemSource(
    labels: seq<string>,
    symbols: seq<string>,
    searchFlags: seq<bool>,
    badgeCounts: seq<Option<int>>)

  /** Number of tabs: the longer of the label and symbol arrays; missing
      entries of the shorter one count as absent. */
  function ItemCount(src: ItemSource): nat {
    Max(|src.labels|, |src.symbols|)
  }

  /** Bounds-checked lookups into the parallel arrays. */
  predicate IsSearchAt(src: ItemSource, i: nat) {
    i < |src.searchFlags| && src.searchFlags[i]
  }

  function LabelAt(src: ItemSource, i: nat): Option<string> {
    if i < |src.labels| then Some(src.labels[i]) else None
  }

  function BadgeCountAt(src: ItemSource, i: nat): Option<int> {
    if i < |src.badgeCounts| then src.badgeCounts[i] else None
  }

  /** The item at position i. A search position becomes the system search
      item on iOS 26 and later, and otherwise a plain item with the
      magnifying-glass image and the default tag 0; in both cases its title
      is the label when there is one and nothing else. Any other position
      gets the label or "Tab i+1", the image of a non-empty symbol name, and
      tag i. Every item gets the badge its count calls for. */
  function ItemAt(src: ItemSource, i: nat, p: Platform): (item: TabItem)
    ensures item.badge == BadgeText(BadgeCountAt(src, i))
    ensures !IsSearchAt(src, i) ==>
      && item.kind == Custom
      && item.tag == i
      && item.title == Some(if i < |src.labels| then src.labels[i] else FallbackTitle(i))
      && item.image == item.selectedImage
      && (item.image.Some? <==> i < |src.symbols| && src.symbols[i] != "" && src.symbols[i] in p.symbols)
      && (item.image.Some? ==> item.image.value.name == src.symbols[i])
    ensures IsSearchAt(src, i) ==>
      && item.title == LabelAt(src, i)
      && (item.kind == SystemSearch <==> Available(p, 26))
      && item.tag == (if Available(p, 26) then i else 0)
      && (!Available(p, 26) ==> item.image == item.selectedImage == Resolve(p, "magnifyingglass"))
      && (Available(p, 26) ==> item.image.None? && item.selectedImage.None?)
  {
    var title := LabelAt(src, i);
    var base :=
      if IsSearchAt(src, i) then
        if Available(p, 26) then TabItem(SystemSearch, title, None, None, i, None)
        else
          var searchImage := Resolve(p, "magnifyingglass");
          TabItem(Custom, title, searchImage, searchImage, 0, None)
      else
        var image := if i < |src.symbols| && src.symbols[i] != "" then Resolve(p, src.symbols[i]) else None;
        TabItem(Custom, Some(title.GetOr(FallbackTitle(i))), image, image, i, None);
    base.(badge := BadgeText(BadgeCountAt(src, i)))
  }

  /** The full item list of a source. */
  function Items(src: ItemSource, p: Platform): (items: seq<TabItem>)
    ensures |items| == ItemCount(src)
  {
    seq(ItemCount(src), i requires 0 <= i => ItemAt(src, i, p))
  }

  /** The position the bar selects for a requested index: the index itself
      when it names an item, and no item otherwise. */
  function SelectionFor(index: int, count: nat): (s: Option<nat>)
    ensures s.Some? <==> 0 <= index < count
    ensures s.Some? ==> s.value == index
  {
    if 0 <= index < count then Some(index) else None
  }

  /** One iteration of the view's item loop: the item at position i. */
  method BuildItem(src: ItemSource, i: nat, p: Platform) returns (item: TabItem)
    ensures item == ItemAt(src, i, p)
  {
    var title := if i < |src.labels| then Some(src.labels[i]) else None;
    var isSearch := i < |src.searchFlags| && src.searchFlags[i];
    var badgeCount := if i < |src.badgeCounts| then src.badgeCounts[i] else None;
    if isSearch {
      if Available(p, 26) {
        item := TabItem(SystemSearch, None, None, None, i, None);
        if title.Some? {
          item := item.(title := title);
        }
      } else {
        var searchImage := Resolve(p, "magnifyingglass");
        item := TabItem(Custom, title, searchImage, searchImage, 0, None);
      }
    } else {
      var image: Option<Image> := None;
      if i < |src.symbols| && src.symbols[i] != "" {
        image := Resolve(p, src.symbols[i]);
      }
      item := TabItem(Custom, Some(if title.Some? then title.value else FallbackTitle(i)), image, image, i, None);
    }
    if badgeCount.Some? && badgeCount.value > 0 {
      item := item.(badge := Some(if badgeCount.value > 99 then "99+" else DecimalString(badgeCount.value)));
    } else {
      item := item.(badge := None);
    }
  }

  /** Builds the items one position at a time, as the view does on creation
      and on `setItems`. */
  method BuildItems(src: ItemSource, p: Platform) returns (items: seq<TabItem>)
    ensures |items| == ItemCount(src)
    ensures forall i :: 0 <= i < |items| ==> items[i] == ItemAt(src, i, p)
  {
    items := [];
    var count := Max(|src.labels|, |src.symbols|);
    for i := 0 to count
      invariant |items| == i
      invariant forall k :: 0 <= k < i ==> items[k] == ItemAt(src, k, p)
    {
      var item := BuildItem(src, i, p);
      items := items + [item];
    }
  }

  /** The items after `setBadgeCounts`: every item that has a count gets the
      badge of that count; later items keep their badges. */
  function ApplyBadges(items: seq<TabItem>, counts: seq<Option<int>>): (r: seq<TabItem>)
    ensures |r| == |items|
    ensures forall i :: 0 <= i < |r| ==>
      r[i].badge == (if i < |counts| then BadgeText(counts[i]) else items[i].badge)
    ensures forall i :: 0 <= i < |r| ==> r[i] == items[i].(badge := r[i].badge)
  {
    seq(|items|, i requires 0 <= i < |items| =>
      if i < |counts| then items[i].(badge := BadgeText(counts[i])) else items[i])
  }

  /** Rewriting the badges in place agrees with rebuilding every item from
      the new counts whenever the counts cover every item; when they do not,
      the uncovered items keep their previous badges where a rebuild would
      clear them. */
  lemma {:induction false} BadgeUpdateMatchesRebuild(src: ItemSource, counts: seq<Option<int>>, p: Platform, i: nat)
    requires i < ItemCount(src)
    ensures i < |counts| ==>
      ApplyBadges(Items(src, p), counts)[i] == Items(src.(badgeCounts := counts), p)[i]
    ensures i >= |counts| ==>
      && ApplyBadges(Items(src, p), counts)[i] == Items(src, p)[i]
      && Items(src.(badgeCounts := counts), p)[i].badge.None?
  {
    var src' := src.(badgeCounts := counts);
    var a := ItemAt(src, i, p);
    var b := ItemAt(src', i, p);
    assert Items(src, p)[i] == a;
    assert Items(src', p)[i] == b;
    assert a.(badge := BadgeText(BadgeCountAt(src', i))) == b;
  }

  /** The index the bar reports when an item is tapped is its position; it
      equals the item's tag for every item except a search item below
      iOS 26, whose tag is the default 0. */
  lemma ReportedIndexIsTag(src: ItemSource, p: Platform, i: nat)
    requires i < ItemCount(src)
    ensures Items(src, p)[i].tag == i <==> (!IsSearchAt(src, i) || Available(p, 26) || i == 0)
  {
    assert Items(src, p)[i] == ItemAt(src, i, p);
  }

  class TabBarPlatformView {
    const platform: Platform
    var currentLabels: seq<string>
    var currentSymbols: seq<string>
    var currentSearchFlags: seq<bool>
    var currentBadgeCounts: seq<Option<int>>
    /** The bar's items and its selected item, as a position in `items`. */
    var items: seq<TabItem>
    var selectedItem: Option<nat>
    var tintColor: Option<Argb.Channels>
    var barTintColor: Option<Argb.Channels>
    /** The interface style forced on the container (true for dark), from
        iOS 13 on. */
    var overrideDark: Option<bool>
    /** The requested minimize behaviour; it is only stored. */
    var minimizeBehavior: int

    ghost predicate Valid()
      reads this
    {
      selectedItem.Some? ==> selectedItem.value < |items|
    }

    function Source(): ItemSource
      reads this
    {
      ItemSource(currentLabels, currentSymbols, currentSearchFlags, currentBadgeCounts)
    }

    /** Creation: absent arrays are empty, the selected index defaults to 0
        and selects only an existing item; the tint is applied from iOS 10
        on, and from iOS 13 on the container
        is forced light unless the payload asks for dark. */
    constructor (args: TabBarArgs, platform: Platform)
      ensures Valid() && this.platform == platform
      ensures currentLabels == args.labels.GetOr([]) && currentSymbols == args.sfSymbols.GetOr([])
      ensures currentSearchFlags == args.searchFlags.GetOr([]) && currentBadgeCounts == args.badgeCounts.GetOr([])
      ensures items == Items(Source(), platform)
      ensures selectedItem == SelectionFor(args.selectedIndex.GetOr(0), |items|)
      ensures tintColor == (if args.tint.Some? && Available(platform, 10) then Some(Argb.ColorFromArgb(args.tint.value)) else None)
      ensures barTintColor == (if args.backgroundColor.Some? then Some(Argb.ColorFromArgb(args.backgroundColor.value)) else None)
      ensures overrideDark == (if Available(platform, 13) then Some(args.isDark.GetOr(false)) else None)
      ensures minimizeBehavior == args.minimizeBehavior.GetOr(AutomaticMinimize)
    {
      var src := ItemSource(args.labels.GetOr([]), args.sfSymbols.GetOr([]),
                            args.searchFlags.GetOr([]), args.badgeCounts.GetOr([]));
      var built := BuildItems(src, platform);
      this.platform := platform;
      currentLabels, currentSymbols := src.labels, src.symbols;
      currentSearchFlags, currentBadgeCounts := src.searchFlags, src.badgeCounts;
      items := built;
      selectedItem := SelectionFor(args.selectedIndex.GetOr(0), |built|);
      tintColor := if args.tint.Some? && Available(platform, 10) then Some(Argb.ColorFromArgb(args.tint.value)) else None;
      barTintColor := if args.backgroundColor.Some? then Some(Argb.ColorFromArgb(args.backgroundColor.value)) else None;
      overrideDark := if Available(platform, 13) then Some(args.isDark.GetOr(false)) else None;
      minimizeBehavior := args.minimizeBehavior.GetOr(AutomaticMinimize);
    }

    /** `setItems`: without both a label array and a symbol array the call
        fails with "bad_args" and nothing changes; otherwise the arrays are
        stored, the items rebuilt, and the requested index (default 0)
        selected when it names an item. */
    method SetItems(args: TabBarArgs) returns (reply: Reply)
      requires Valid()
      modifies this
      ensures Valid()
      ensures args.labels.None? || args.sfSymbols.None? ==>
        reply == Failure("bad_args") && unchanged(this)
      ensures args.labels.Some? && args.sfSymbols.Some? ==>
        && reply == Success
        && currentLabels == args.labels.value && currentSymbols == args.sfSymbols.value
        && currentSearchFlags == args.searchFlags.GetOr([]) && currentBadgeCounts == args.badgeCounts.GetOr([])
        && items == Items(Source(), platform)
        && selectedItem == SelectionFor(args.selectedIndex.GetOr(0), |items|)
        && tintColor == old(tintColor) && barTintColor == old(barTintColor) && overrideDark == old(overrideDark)
        && minimizeBehavior == old(minimizeBehavior)
    {
      if args.labels.None? || args.sfSymbols.None? {
        return Failure("bad_args");
      }
      currentLabels := args.labels.value;
      currentSymbols := args.sfSymbols.value;
      currentSearchFlags := args.searchFlags.GetOr([]);
      currentBadgeCounts := args.badgeCounts.GetOr([]);
      items := BuildItems(Source(), platform);
      selectedItem := SelectionFor(args.selectedIndex.GetOr(0), |items|);
      reply := Success;
    }

    /** `setSelectedIndex`: a missing index fails with "bad_args"; an index
        naming an item selects it; any other index leaves the selection as
        it was and still succeeds. */
    method SetSelectedIndex(index: Option<int>) returns (reply: Reply)
      requires Valid()
      modifies this`selectedItem
      ensures Valid()
      ensures index.None? ==> reply == Failure("bad_args") && selectedItem == old(selectedItem)
      ensures index.Some? ==> reply == Success
      ensures index.Some? && 0 <= index.value < |items| ==> selectedItem == Some(index.value)
      ensures index.Some? && !(0 <= index.value < |items|) ==> selectedItem == old(selectedItem)
    {
      if index.None? {
        return Failure("bad_args");
      }
      if 0 <= index.value < |items| {
        selectedItem := Some(index.value);
      }
      reply := Success;
    }

    /** `setStyle`: a payload that is not a dictionary fails with
        "bad_args"; otherwise a given tint and a given background colour
        replace the bar's tint and bar tint. Nothing else is restyled. */
    method SetStyle(args: Option<StyleArgs>) returns (reply: Reply)
      modifies this`tintColor, this`barTintColor
      ensures args.None? ==> reply == Failure("bad_args") && tintColor == old(tintColor) && barTintColor == old(barTintColor)
      ensures args.Some? ==> reply == Success
      ensures args.Some? ==>
        tintColor == (if args.value.tint.Some? then Some(Argb.ColorFromArgb(args.value.tint.value)) else old(tintColor))
      ensures args.Some? ==>
        barTintColor == (if args.value.backgroundColor.Some? then Some(Argb.ColorFromArgb(args.value.backgroundColor.value)) else old(barTintColor))
    {
      if args.None? {
        return Failure("bad_args");
      }
      if args.value.tint.Some? {
        tintColor := Some(Argb.ColorFromArgb(args.value.tint.value));
      }
      if args.value.backgroundColor.Some? {
        barTintColor := Some(Argb.ColorFromArgb(args.value.backgroundColor.value));
      }
      reply := Success;
    }

    /** `setBrightness`: a missing flag fails with "bad_args"; otherwise the
        container is forced dark or light from iOS 13 on. */
    method SetBrightness(isDark: Option<bool>) returns (reply: Reply)
      modifies this`overrideDark
      ensures isDark.None? <==> reply == Failure("bad_args")
      ensures isDark.Some? ==> reply == Success
      ensures overrideDark == (if isDark.Some? && Available(platform, 13) then isDark else old(overrideDark))
    {
      if isDark.None? {
        return Failure("bad_args");
      }
      if Available(platform, 13) {
        overrideDark := isDark;
      }
      reply := Success;
    }

    /** `setMinimizeBehavior`: a missing behaviour fails with "bad_args";
        otherwise it is stored. */
    method SetMinimizeBehavior(behavior: Option<int>) returns (reply: Reply)
      modifies this`minimizeBehavior
      ensures behavior.None? <==> reply == Failure("bad_args")
      ensures behavior.Some? ==> reply == Success
      ensures minimizeBehavior == (if behavior.Some? then behavior.value else old(minimizeBehavior))
    {
      if behavior.None? {
        return Failure("bad_args");
      }
      minimizeBehavior := behavior.value;
      reply := Success;
    }

    /** `setBadgeCounts`: a missing array fails with "bad_args" and nothing
        changes; otherwise the array is stored and each item that has a
        count gets its badge rewritten in place. */
    method SetBadgeCounts(badgeCounts: Option<seq<Option<int>>>) returns (reply: Reply)
      requires Valid()
      modifies this`currentBadgeCounts, this`items
      ensures Valid()
      ensures badgeCounts.None? ==> reply == Failure("bad_args") && unchanged(this)
      ensures badgeCounts.Some? ==>
        && reply == Success
        && currentBadgeCounts == badgeCounts.value
        && items == ApplyBadges(old(items), badgeCounts.value)
    {
      if badgeCounts.None? {
        return Failure("bad_args");
      }
      var counts := badgeCounts.value;
      currentBadgeCounts := counts;
      ghost var before := items;
      for index := 0 to |items|
        invariant currentBadgeCounts == counts && |items| == |before|
        invariant forall k :: 0 <= k < index ==> items[k] == ApplyBadges(before, counts)[k]
        invariant forall k :: index <= k < |items| ==> items[k] == before[k]
      {
        if index < |counts| {
          var count := counts[index];
          if count.Some? && count.value > 0 {
            items := items[index := items[index].(badge := Some(if count.value > 99 then "99+" else DecimalString(count.value)))];
          } else {
            items := items[index := items[index].(badge := None)];
          }
        }
      }
      reply := Success;
    }

    /** The delegate callback: tapping the item at a position of the bar
        reports that position as the new index, not the item's tag;
        `ReportedIndexIsTag` says when the two agree. */
    method DidSelect(position: nat) returns (reported: Option<nat>)
      ensures reported.Some? <==> position < |items|
      ensures reported.Some? ==> reported.value == position
    {
      reported := if position < |items| then Some(position) else None;
    }
  }
}

=== FILE: toolbar.dfy ===
/** The toolbar platform view: a navigation bar whose title, optional
    leading button and action buttons come from a configuration dictionary.
    Actions are split into a left and a right group at the first flexible
    spacer requested by an action that makes a button (the intended split,
    at the first flexible spacer of any action, is `GroupItems`); fixed
    spacers follow their button in the same group; the right group is shown
    reversed. */
module Toolbar {
  import opened Common

  /** One decoded entry of the `actions` array. */
  datatype Action = Action(icon: Option<string>, title: Option<string>, spacerAfter: Option<int>)

  datatype ButtonContent = IconContent(image: Option<Image>) | TitleContent(text: string)

  /** A bar item: an action button tagged with its action's index, the
      leading button, or a fixed space. */
  datatype BarItem =
    | Button(content: ButtonContent, tag: int)
    | LeadingButton(content: ButtonContent)
    | FixedSpace(width: int)

  /** Values of `spacerAfter`. */
  const FixedSpacer := 1
  const FlexibleSpacer := 2
  const FixedSpaceWidth := 12

  /** The button an action makes: the icon wins over the title, and an
      action with neither makes no button. */
  function ButtonFor(a: Action, p: Platform): (b: Option<ButtonContent>)
    ensures b.Some? <==> a.icon.Some? || a.title.Some?
    ensures a.icon.Some? ==> b == Some(IconContent(Resolve(p, a.icon.value)))
    ensures a.icon.None? && a.title.Some? ==> b == Some(TitleContent(a.title.value))
  {
    if a.icon.Some? then Some(IconContent(Resolve(p, a.icon.value)))
    else if a.title.Some? then Some(TitleContent(a.title.value))
    else None
  }

  /** Whether a fixed space follows the button of an action (fixed spaces
      exist from iOS 16 on). */
  predicate WantsFixedSpace(a: Action, p: Platform) {
    a.spacerAfter == Some(FixedSpacer) && Available(p, 16)
  }

  /** What one action contributes to its group: its button, then a fixed
      space when asked for; nothing when it makes no button. */
  function ItemsFor(a: Action, index: nat, p: Platform): seq<BarItem> {
    match ButtonFor(a, p)
    case None => []
    case Some(c) => [Button(c, index)] + (if WantsFixedSpace(a, p) then [FixedSpace(FixedSpaceWidth)] else [])
  }

  /** The items of actions[lo..hi], in order. */
  function Emit(actions: seq<Action>, lo: nat, hi: nat, p: Platform): seq<BarItem>
    requires lo <= hi <= |actions|
    decreases hi - lo
  {
    if lo == hi then [] else Emit(actions, lo, hi - 1, p) + ItemsFor(actions[hi - 1], hi - 1, p)
  }

  /** One action contributes nothing exactly when it makes no button;
      otherwise its button comes first, followed by a fixed space exactly
      when it asks for one. */
  lemma ItemsForShape(a: Action, index: nat, p: Platform)
    ensures ItemsFor(a, index, p) == [] <==> ButtonFor(a, p).None?
    ensures ItemsFor(a, index, p) != [] ==> ItemsFor(a, index, p)[0] == Button(ButtonFor(a, p).value, index)
    ensures |ItemsFor(a, index, p)| == 2 <==> ButtonFor(a, p).Some? && WantsFixedSpace(a, p)
    ensures |ItemsFor(a, index, p)| == 2 ==> ItemsFor(a, index, p)[1] == FixedSpace(FixedSpaceWidth)
    ensures |ItemsFor(a, index, p)| <= 2
  {
  }

  /** A range of actions yields at most two items per action, and none
      exactly when no action in it makes a button. */
  lemma {:induction false} EmitBounds(actions: seq<Action>, lo: nat, hi: nat, p: Platform)
    requires lo <= hi <= |actions|
    ensures |Emit(actions, lo, hi, p)| <= 2 * (hi - lo)
    ensures Emit(actions, lo, hi, p) == [] <==> forall k :: lo <= k < hi ==> ButtonFor(actions[k], p).None?
    decreases hi - lo
  {
    if lo < hi {
      EmitBounds(actions, lo, hi - 1, p);
      ItemsForShape(actions[hi - 1], hi - 1, p);
    }
  }

  /** The items of a range are those of its two halves, in order. */
  lemma {:induction false} EmitSplit(actions: seq<Action>, lo: nat, mid: nat, hi: nat, p: Platform)
    requires lo <= mid <= hi <= |actions|
    ensures Emit(actions, lo, mid, p) + Emit(actions, mid, hi, p) == Emit(actions, lo, hi, p)
    decreases hi - mid
  {
    if mid < hi {
      EmitSplit(actions, lo, mid, hi - 1, p);
      var front, back, it := Emit(actions, lo, mid, p), Emit(actions, mid, hi - 1, p), ItemsFor(actions[hi - 1], hi - 1, p);
      assert Emit(actions, mid, hi, p) == back + it;
      assert Emit(actions, lo, hi, p) == (front + back) + it;
      assert front + (back + it) == (front + back) + it;
    }
  }

  predicate IsFlexible(a: Action) {
    a.spacerAfter == Some(FlexibleSpacer)
  }

  predicate HasFlexible(actions: seq<Action>) {
    exists k :: 0 <= k < |actions| && IsFlexible(actions[k])
  }

  /** Index of the first action that asks for a flexible spacer, or the
      number of actions when none does. */
  function FirstFlexible(actions: seq<Action>): (f: nat)
    ensures f <= |actions|
    ensures f < |actions| ==> IsFlexible(actions[f])
    ensures forall k :: 0 <= k < f ==> !IsFlexible(actions[k])
    ensures f == |actions| <==> !HasFlexible(actions)
  {
    if actions == [] then 0
    else if IsFlexible(actions[0]) then 0
    else 1 + FirstFlexible(actions[1..])
  }

  /** Index of the first action that makes a button AND asks for a flexible
      spacer, or the number of actions when none does. */
  function FirstFlexibleButton(actions: seq<Action>, p: Platform): (g: nat)
    ensures g <= |actions|
    ensures g < |actions| ==> IsFlexible(actions[g]) && ButtonFor(actions[g], p).Some?
    ensures forall k :: 0 <= k < g ==> !(IsFlexible(actions[k]) && ButtonFor(actions[k], p).Some?)
  {
    if actions == [] then 0
    else if IsFlexible(actions[0]) && ButtonFor(actions[0], p).Some? then 0
    else 1 + FirstFlexibleButton(actions[1..], p)
  }

  datatype Groups = Groups(left: seq<BarItem>, right: seq<BarItem>)

  /** The intended grouping: with no flexible spacer every item goes right;
      otherwise the items of the actions up to and including the first
      flexible one go left and the rest go right. */
  function GroupItems(actions: seq<Action>, p: Platform): (g: Groups)
    ensures !HasFlexible(actions) ==> g.left == [] && g.right == Emit(actions, 0, |actions|, p)
  {
    var f := FirstFlexible(actions);
    if f == |actions| then Groups([], Emit(actions, 0, |actions|, p))
    else Groups(Emit(actions, 0, f + 1, p), Emit(actions, f + 1, |actions|, p))
  }

  /** The grouping as the view's loop computes it: whether a flexible
      spacer exists is decided over all actions, but the split point only
      moves on an action that also made a button. */
  function GroupItemsAsWritten(actions: seq<Action>, p: Platform): (r: Groups)
    ensures !HasFlexible(actions) ==> r == GroupItems(actions, p)
    ensures HasFlexible(actions) && FirstFlexibleButton(actions, p) == |actions| ==> r.right == []
  {
    var g := FirstFlexibleButton(actions, p);
    if !HasFlexible(actions) then Groups([], Emit(actions, 0, |actions|, p))
    else if g == |actions| then Groups(Emit(actions, 0, |actions|, p), [])
    else Groups(Emit(actions, 0, g + 1, p), Emit(actions, g + 1, |actions|, p))
  }

  /** A flexible-spacer request on an action that makes no button sends the
      buttons after it to the LEFT group as written, while the grouping puts
      them on the right. */
  lemma AsWrittenMisplacesButtons()
    ensures
      var p := Platform(26, {"gear"});
      var actions := [Action(None, None, Some(FlexibleSpacer)), Action(Some("gear"), None, None)];
      var gear := Button(IconContent(Some(SystemImage("gear"))), 1);
      && GroupItemsAsWritten(actions, p) == Groups([gear], [])
      && GroupItems(actions, p) == Groups([], [gear])
  {
    var p := Platform(26, {"gear"});
    var actions := [Action(None, None, Some(FlexibleSpacer)), Action(Some("gear"), None, None)];
    assert IsFlexible(actions[0]);
    assert FirstFlexible(actions) == 0;
    assert FirstFlexibleButton(actions[1..], p) == 1;
    assert FirstFlexibleButton(actions, p) == 2;
    assert Emit(actions, 0, 1, p) == [];
    assert Emit(actions, 1, 1, p) == [];
  }

  /** The intended grouping splits the items of all actions in two, in
      order: it neither drops, adds nor reorders an item. */
  lemma GroupItemsPartition(actions: seq<Action>, p: Platform)
    ensures GroupItems(actions, p).left + GroupItems(actions, p).right == Emit(actions, 0, |actions|, p)
  {
    var n, f := |actions|, FirstFlexible(actions);
    if f < n {
      assert GroupItems(actions, p) == Groups(Emit(actions, 0, f + 1, p), Emit(actions, f + 1, n, p));
      EmitSplit(actions, 0, f + 1, n, p);
    }
  }

  /** So does the grouping as written. */
  lemma AsWrittenPartition(actions: seq<Action>, p: Platform)
    ensures GroupItemsAsWritten(actions, p).left + GroupItemsAsWritten(actions, p).right == Emit(actions, 0, |actions|, p)
  {
    var n, g := |actions|, FirstFlexibleButton(actions, p);
    if HasFlexible(actions) && g < n {
      assert GroupItemsAsWritten(actions, p) == Groups(Emit(actions, 0, g + 1, p), Emit(actions, g + 1, n, p));
      EmitSplit(actions, 0, g + 1, n, p);
    }
  }

  /** The two groupings agree whenever the first flexible request comes from
      an action that makes a button (or there is no flexible request). */
  lemma AsWrittenAgreesWhenMarkerMakesButton(actions: seq<Action>, p: Platform)
    requires !HasFlexible(actions) || ButtonFor(actions[FirstFlexible(actions)], p).Some?
    ensures GroupItemsAsWritten(actions, p) == GroupItems(actions, p)
  {
    if HasFlexible(actions) {
      var n, f, g := |actions|, FirstFlexible(actions), FirstFlexibleButton(actions, p);
      assert g <= f;
      assert g == f < n;
      assert GroupItemsAsWritten(actions, p) == Groups(Emit(actions, 0, f + 1, p), Emit(actions, f + 1, n, p));
    }
  }

  /** The left and right groups of the loop as written once the first i
      actions are processed: with a flexible request, the actions up to and
      including s, the first flexible action that made a button, go left. */
  ghost function LeftAfter(actions: seq<Action>, hasFlexible: bool, s: nat, i: nat, p: Platform): seq<BarItem>
    requires s <= |actions| && i <= |actions|
  {
    if !hasFlexible then [] else Emit(actions, 0, if i <= s + 1 then i else s + 1, p)
  }

  ghost function RightAfter(actions: seq<Action>, hasFlexible: bool, s: nat, i: nat, p: Platform): seq<BarItem>
    requires s <= |actions| && i <= |actions|
  {
    if !hasFlexible then Emit(actions, 0, i, p)
    else if i <= s + 1 then [] else Emit(actions, s + 1, i, p)
  }

  /** Processing action i adds its items to the left group while the split
      is still ahead and to the right group otherwise. */
  lemma GroupStep(actions: seq<Action>, hasFlexible: bool, s: nat, i: nat, p: Platform)
    requires s <= |actions| && i < |actions|
    ensures hasFlexible && i <= s ==>
      && LeftAfter(actions, hasFlexible, s, i + 1, p) == LeftAfter(actions, hasFlexible, s, i, p) + ItemsFor(actions[i], i, p)
      && RightAfter(actions, hasFlexible, s, i + 1, p) == RightAfter(actions, hasFlexible, s, i, p)
    ensures !(hasFlexible && i <= s) ==>
      && RightAfter(actions, hasFlexible, s, i + 1, p) == RightAfter(actions, hasFlexible, s, i, p) + ItemsFor(actions[i], i, p)
      && LeftAfter(actions, hasFlexible, s, i + 1, p) == LeftAfter(actions, hasFlexible, s, i, p)
  {
  }

  /** The split flag is first set at the first flexible action that makes a
      button. */
  lemma FlagStep(actions: seq<Action>, p: Platform, index: nat)
    requires index < |actions|
    ensures IsFlexible(actions[index]) && ButtonFor(actions[index], p).Some? ==>
      index >= FirstFlexibleButton(actions, p)
    ensures index == FirstFlexibleButton(actions, p) ==>
      IsFlexible(actions[index]) && ButtonFor(actions[index], p).Some?
  {
  }

  /** One iteration of the `configureItems` loop: the action's button, and
      the fixed space it asks for, go to the left group while the split is
      still ahead and to the right group otherwise; a flexible request marks
      the split only on an action that made a button. */
  method PlaceAction(action: Action, index: nat, p: Platform, hasFlexible: bool, foundFlexible: bool,
                     leftGroup: seq<BarItem>, rightGroup: seq<BarItem>)
    returns (newLeft: seq<BarItem>, newRight: seq<BarItem>, newFound: bool)
    ensures hasFlexible && !foundFlexible ==>
      newLeft == leftGroup + ItemsFor(action, index, p) && newRight == rightGroup
    ensures !(hasFlexible && !foundFlexible) ==>
      newRight == rightGroup + ItemsFor(action, index, p) && newLeft == leftGroup
    ensures newFound <==> foundFlexible || (IsFlexible(action) && ButtonFor(action, p).Some?)
  {
    newLeft, newRight, newFound := leftGroup, rightGroup, foundFlexible;
    var button: Option<ButtonContent> := None;
    if action.icon.Some? {
      button := Some(IconContent(Resolve(p, action.icon.value)));
    } else if action.title.Some? {
      button := Some(TitleContent(action.title.value));
    }
    if button.Some? {
      var btn := Button(button.value, index);
      if !hasFlexible {
        newRight := newRight + [btn];
      } else if !foundFlexible {
        newLeft := newLeft + [btn];
      } else {
        newRight := newRight + [btn];
      }
      if action.spacerAfter == Some(FixedSpacer) {
        if Available(p, 16) {
          var space := FixedSpace(FixedSpaceWidth);
          if !hasFlexible {
            newRight := newRight + [space];
          } else if !foundFlexible {
            newLeft := newLeft + [space];
          } else {
            newRight := newRight + [space];
          }
        }
      } else if action.spacerAfter == Some(FlexibleSpacer) {
        newFound := true;
      }
    }
    assert button == ButtonFor(action, p);
  }

  /** The two pass loop of `configureItems`: whether a flexible request
      exists is decided over all actions, and the split flag is set by a
      flexible request on an action that made a button. It computes the
      grouping as written; `AsWrittenAgreesWhenMarkerMakesButton` says when
      that is the intended `GroupItems`. */
  method GroupActions(actions: seq<Action>, p: Platform) returns (leftGroup: seq<BarItem>, rightGroup: seq<BarItem>)
    ensures Groups(leftGroup, rightGroup) == GroupItemsAsWritten(actions, p)
  {
    var hasFlexible := exists k :: 0 <= k < |actions| && IsFlexible(actions[k]);
    var foundFlexible := false;
    leftGroup, rightGroup := [], [];
    ghost var s := FirstFlexibleButton(actions, p);
    for index := 0 to |actions|
      invariant foundFlexible <==> index > s
      invariant leftGroup == LeftAfter(actions, hasFlexible, s, index, p)
      invariant rightGroup == RightAfter(actions, hasFlexible, s, index, p)
    {
      GroupStep(actions, hasFlexible, s, index, p);
      FlagStep(actions, p, index);
      leftGroup, rightGroup, foundFlexible := PlaceAction(actions[index], index, p, hasFlexible, foundFlexible, leftGroup, rightGroup);
    }
    assert hasFlexible == HasFlexible(actions);
  }

  /** Every button among the items of actions[lo..hi] carries the index of
      the action that made it, and that action's button; the items hold no
      leading button. */
  lemma {:induction false} EmitTags(actions: seq<Action>, lo: nat, hi: nat, p: Platform)
    requires lo <= hi <= |actions|
    ensures forall q :: 0 <= q < |Emit(actions, lo, hi, p)| ==>
      var x := Emit(actions, lo, hi, p)[q];
      !x.LeadingButton? &&
      (x.Button? ==> lo <= x.tag < hi && ButtonFor(actions[x.tag], p) == Some(x.content))
    decreases hi - lo
  {
    if lo < hi {
      EmitTags(actions, lo, hi - 1, p);
    }
  }

  /** Every action of actions[lo..hi] that makes a button has that button,
      with its index as tag, among the items. */
  lemma {:induction false} EmitComplete(actions: seq<Action>, lo: nat, hi: nat, p: Platform, k: nat)
    requires lo <= k < hi <= |actions| && ButtonFor(actions[k], p).Some?
    ensures Button(ButtonFor(actions[k], p).value, k) in Emit(actions, lo, hi, p)
    decreases hi - lo
  {
    assert Emit(actions, lo, hi, p) == Emit(actions, lo, hi - 1, p) + ItemsFor(actions[hi - 1], hi - 1, p);
    if k < hi - 1 {
      EmitComplete(actions, lo, hi - 1, p, k);
    } else {
      assert ItemsFor(actions[k], k, p)[0] == Button(ButtonFor(actions[k], p).value, k);
    }
  }

  /** Buttons keep the order of their actions. */
  lemma {:induction false} EmitOrdered(actions: seq<Action>, lo: nat, hi: nat, p: Platform)
    requires lo <= hi <= |actions|
    ensures forall q1, q2 ::
      (0 <= q1 < q2 < |Emit(actions, lo, hi, p)| &&
       Emit(actions, lo, hi, p)[q1].Button? && Emit(actions, lo, hi, p)[q2].Button?) ==>
      Emit(actions, lo, hi, p)[q1].tag < Emit(actions, lo, hi, p)[q2].tag
    decreases hi - lo
  {
    if lo < hi {
      EmitOrdered(actions, lo, hi - 1, p);
      EmitTags(actions, lo, hi - 1, p);
    }
  }

  /** Whether an item is the button of an action that asked for a fixed
      space. */
  predicate AsksForSpace(x: BarItem, actions: seq<Action>, p: Platform) {
    x.Button? && 0 <= x.tag < |actions| && WantsFixedSpace(actions[x.tag], p)
  }

  /** Every fixed space among the items stands directly after the button of
      an action that asked for one: the first item is no fixed space, and
      the item before any other fixed space asked for it. */
  predicate SpacesFollowButtons(items: seq<BarItem>, actions: seq<Action>, p: Platform) {
    && (|items| > 0 ==> !items[0].FixedSpace?)
    && forall i, j :: 0 <= i < |items| && 0 <= j < |items| && j == i + 1 && items[j].FixedSpace? ==>
         AsksForSpace(items[i], actions, p)
  }

  /** Every button of an action that asked for a fixed space is directly
      followed by one: the last item is no such button, and the item after
      any other one is a fixed space. */
  predicate ButtonsHaveSpaces(items: seq<BarItem>, actions: seq<Action>, p: Platform) {
    && (|items| > 0 ==> !AsksForSpace(items[|items| - 1], actions, p))
    && forall i, j :: 0 <= i < |items| && 0 <= j < |items| && j == i + 1 && AsksForSpace(items[i], actions, p) ==>
         items[j] == FixedSpace(FixedSpaceWidth)
  }

  /** Appending the items of one more action keeps every fixed space right
      after the button that asked for it. */
  lemma SpacesFollowButtonsAppend(e: seq<BarItem>, actions: seq<Action>, k: nat, p: Platform)
    requires k < |actions| && SpacesFollowButtons(e, actions, p)
    ensures SpacesFollowButtons(e + ItemsFor(actions[k], k, p), actions, p)
  {
    var it := ItemsFor(actions[k], k, p);
    var all := e + it;
    if |all| > 0 {
      assert all[0] == if |e| > 0 then e[0] else it[0];
    }
    forall i, j | 0 <= i < |all| && 0 <= j < |all| && j == i + 1 && all[j].FixedSpace?
      ensures AsksForSpace(all[i], actions, p)
    {
      if j < |e| {
        assert e[j].FixedSpace? && all[i] == e[i];
      } else {
        assert j == |e| + 1 && all[i] == it[0];
      }
    }
  }

  /** Appending the items of one more action keeps every button that asked
      for a fixed space followed by one. */
  lemma ButtonsHaveSpacesAppend(e: seq<BarItem>, actions: seq<Action>, k: nat, p: Platform)
    requires k < |actions| && ButtonsHaveSpaces(e, actions, p)
    ensures ButtonsHaveSpaces(e + ItemsFor(actions[k], k, p), actions, p)
  {
    var it := ItemsFor(actions[k], k, p);
    var all := e + it;
    if |it| > 0 {
      assert all[|all| - 1] == it[|it| - 1];
    }
    forall i, j | 0 <= i < |all| && 0 <= j < |all| && j == i + 1 && AsksForSpace(all[i], actions, p)
      ensures all[j] == FixedSpace(FixedSpaceWidth)
    {
      if j < |e| {
        assert all[i] == e[i] && all[j] == e[j];
      } else if j > |e| {
        assert all[i] == it[0] && all[j] == it[1];
      }
    }
  }

  /** Every fixed space among the items of actions[lo..hi] follows the
      button of an action that asked for one. */
  lemma {:induction false} EmitSpacesFollowButtons(actions: seq<Action>, lo: nat, hi: nat, p: Platform)
    requires lo <= hi <= |actions|
    ensures SpacesFollowButtons(Emit(actions, lo, hi, p), actions, p)
    decreases hi - lo
  {
    if lo < hi {
      EmitSpacesFollowButtons(actions, lo, hi - 1, p);
      assert Emit(actions, lo, hi, p) == Emit(actions, lo, hi - 1, p) + ItemsFor(actions[hi - 1], hi - 1, p);
      SpacesFollowButtonsAppend(Emit(actions, lo, hi - 1, p), actions, hi - 1, p);
    }
  }

  /** Every button among the items of actions[lo..hi] whose action asked for
      a fixed space is directly followed by one. */
  lemma {:induction false} EmitButtonsHaveSpaces(actions: seq<Action>, lo: nat, hi: nat, p: Platform)
    requires lo <= hi <= |actions|
    ensures ButtonsHaveSpaces(Emit(actions, lo, hi, p), actions, p)
    decreases hi - lo
  {
    if lo < hi {
      EmitButtonsHaveSpaces(actions, lo, hi - 1, p);
      assert Emit(actions, lo, hi, p) == Emit(actions, lo, hi - 1, p) + ItemsFor(actions[hi - 1], hi - 1, p);
      ButtonsHaveSpacesAppend(Emit(actions, lo, hi - 1, p), actions, hi - 1, p);
    }
  }

  /** A fixed space stands directly after the button of an action that asked
      for one, and every such button is directly followed by one. */
  lemma FixedSpaceFollowsButton(actions: seq<Action>, lo: nat, hi: nat, p: Platform)
    requires lo <= hi <= |actions|
    ensures SpacesFollowButtons(Emit(actions, lo, hi, p), actions, p)
    ensures ButtonsHaveSpaces(Emit(actions, lo, hi, p), actions, p)
  {
    EmitSpacesFollowButtons(actions, lo, hi, p);
    EmitButtonsHaveSpaces(actions, lo, hi, p);
  }

  /** The groups' contents in terms of the first flexible action. */
  lemma GroupItemsShape(actions: seq<Action>, p: Platform)
    ensures FirstFlexible(actions) == |actions| ==>
      GroupItems(actions, p) == Groups([], Emit(actions, 0, |actions|, p))
    ensures FirstFlexible(actions) < |actions| ==>
      var f := FirstFlexible(actions);
      GroupItems(actions, p) == Groups(Emit(actions, 0, f + 1, p), Emit(actions, f + 1, |actions|, p))
  {
  }

  /** Every button of the left group comes from an action at or before the
      first flexible one, and every button of the right group from an action
      after it (or from any action when there is none). */
  lemma GroupButtonsSound(actions: seq<Action>, p: Platform)
    ensures forall x :: x in GroupItems(actions, p).left && x.Button? ==>
      HasFlexible(actions) && x.tag <= FirstFlexible(actions)
    ensures forall x :: x in GroupItems(actions, p).right && x.Button? ==>
      !HasFlexible(actions) || x.tag > FirstFlexible(actions)
  {
    var n, f := |actions|, FirstFlexible(actions);
    GroupItemsShape(actions, p);
    if f == n {
      EmitTags(actions, 0, n, p);
    } else {
      EmitTags(actions, 0, f + 1, p);
      EmitTags(actions, f + 1, n, p);
    }
  }

  /** The button of action k is among the left group when its index is at
      most that of the first flexible action. */
  lemma ButtonPlacedLeft(actions: seq<Action>, p: Platform, k: nat, f: nat)
    requires f == FirstFlexible(actions) && k <= f < |actions| && ButtonFor(actions[k], p).Some?
    ensures Button(ButtonFor(actions[k], p).value, k) in GroupItems(actions, p).left
  {
    var left := Emit(actions, 0, f + 1, p);
    EmitComplete(actions, 0, f + 1, p, k);
    assert GroupItems(actions, p).left == left;
  }

  /** The button of action k is among the right group when no flexible
      action precedes or is action k. */
  lemma ButtonPlacedRight(actions: seq<Action>, p: Platform, k: nat)
    requires k < |actions| && ButtonFor(actions[k], p).Some?
    requires FirstFlexible(actions) == |actions| || FirstFlexible(actions) < k
    ensures Button(ButtonFor(actions[k], p).value, k) in GroupItems(actions, p).right
  {
    var n, f := |actions|, FirstFlexible(actions);
    if f == n {
      assert GroupItems(actions, p).right == Emit(actions, 0, n, p);
      EmitComplete(actions, 0, n, p, k);
    } else {
      assert GroupItems(actions, p).right == Emit(actions, f + 1, n, p);
      EmitComplete(actions, f + 1, n, p, k);
    }
  }

  /** The button of action k lands in the group its position calls for. */
  lemma ButtonPlaced(actions: seq<Action>, p: Platform, k: nat)
    requires k < |actions| && ButtonFor(actions[k], p).Some?
    ensures HasFlexible(actions) && k <= FirstFlexible(actions) ==>
      Button(ButtonFor(actions[k], p).value, k) in GroupItems(actions, p).left
    ensures !(HasFlexible(actions) && k <= FirstFlexible(actions)) ==>
      Button(ButtonFor(actions[k], p).value, k) in GroupItems(actions, p).right
  {
    if HasFlexible(actions) && k <= FirstFlexible(actions) {
      ButtonPlacedLeft(actions, p, k, FirstFlexible(actions));
    } else {
      ButtonPlacedRight(actions, p, k);
    }
  }

  /** The split: a button sits in the left group exactly when some action at
      or after its own asks for a flexible spacer, i.e. when its index is at
      most the first flexible one, and every button sits in one group. The
      rule as written breaks this (see AsWrittenMisplacesButtons). */
  lemma GroupSplit(actions: seq<Action>, p: Platform)
    ensures forall x :: x in GroupItems(actions, p).left && x.Button? ==>
      HasFlexible(actions) && x.tag <= FirstFlexible(actions)
    ensures forall x :: x in GroupItems(actions, p).right && x.Button? ==>
      !HasFlexible(actions) || x.tag > FirstFlexible(actions)
    ensures forall k :: 0 <= k < |actions| && ButtonFor(actions[k], p).Some? ==>
      var b := Button(ButtonFor(actions[k], p).value, k);
      if HasFlexible(actions) && k <= FirstFlexible(actions) then b in GroupItems(actions, p).left
      else b in GroupItems(actions, p).right
  {
    GroupButtonsSound(actions, p);
    forall k | 0 <= k < |actions| && ButtonFor(actions[k], p).Some?
      ensures var b := Button(ButtonFor(actions[k], p).value, k);
        if HasFlexible(actions) && k <= FirstFlexible(actions) then b in GroupItems(actions, p).left
        else b in GroupItems(actions, p).right
    {
      ButtonPlaced(actions, p, k);
    }
  }

  /** As written, the button of action k goes left exactly when a flexible
      request exists and k is at most the first flexible action that made a
      button (every button when no such action exists). */
  lemma AsWrittenButtonPlaced(actions: seq<Action>, p: Platform, k: nat)
    requires k < |actions| && ButtonFor(actions[k], p).Some?
    ensures HasFlexible(actions) && k <= FirstFlexibleButton(actions, p) ==>
      Button(ButtonFor(actions[k], p).value, k) in GroupItemsAsWritten(actions, p).left
    ensures !(HasFlexible(actions) && k <= FirstFlexibleButton(actions, p)) ==>
      Button(ButtonFor(actions[k], p).value, k) in GroupItemsAsWritten(actions, p).right
  {
    var n, g := |actions|, FirstFlexibleButton(actions, p);
    if !HasFlexible(actions) || g == n {
      EmitComplete(actions, 0, n, p, k);
    } else if k <= g {
      EmitComplete(actions, 0, g + 1, p, k);
    } else {
      EmitComplete(actions, g + 1, n, p, k);
    }
  }

  /** When the first flexible request comes from an action that makes no
      button, every button after it, up to the first flexible action that
      does make one, goes left as written but right in `GroupItems`. */
  lemma AsWrittenMisplacesLaterButtons(actions: seq<Action>, p: Platform, k: nat)
    requires HasFlexible(actions) && ButtonFor(actions[FirstFlexible(actions)], p).None?
    requires FirstFlexible(actions) < k < |actions| && k <= FirstFlexibleButton(actions, p)
    requires ButtonFor(actions[k], p).Some?
    ensures Button(ButtonFor(actions[k], p).value, k) in GroupItemsAsWritten(actions, p).left
    ensures Button(ButtonFor(actions[k], p).value, k) in GroupItems(actions, p).right
    ensures Button(ButtonFor(actions[k], p).value, k) !in GroupItems(actions, p).left
  {
    AsWrittenButtonPlaced(actions, p, k);
    ButtonPlaced(actions, p, k);
    GroupButtonsSound(actions, p);
  }

  /** The leading item: none without a `leading` string, the chevron image
      for an empty one, a titled button otherwise. */
  function LeadingItems(leading: Option<string>, p: Platform): (r: seq<BarItem>)
    ensures leading.None? ==> r == []
    ensures leading == Some("") ==> r == [LeadingButton(IconContent(Resolve(p, "chevron.left")))]
    ensures leading.Some? && leading.value != "" ==> r == [LeadingButton(TitleContent(leading.value))]
  {
    match leading
    case None => []
    case Some(s) =>
      if s == "" then [LeadingButton(IconContent(Resolve(p, "chevron.left")))]
      else [LeadingButton(TitleContent(s))]
  }

  function Reverse<T>(s: seq<T>): (r: seq<T>)
    ensures |r| == |s|
    ensures forall i :: 0 <= i < |s| ==> r[i] == s[|s| - 1 - i]
  {
    if s == [] then [] else Reverse(s[1..]) + [s[0]]
  }

  /** The decoded creation payload. */
  datatype ToolbarParams = ToolbarParams(title: Option<string>, leading: Option<string>, actions: Option<seq<Action>>)

  class ToolbarPlatformView {
    const platform: Platform
    /** The navigation item's title and bar button items. */
    var title: Option<string>
    var leftItems: seq<BarItem>
    var rightItems: seq<BarItem>

    /** Creation: the items are configured only when the payload is a
        dictionary. */
    constructor (params: Option<ToolbarParams>, platform: Platform)
      ensures this.platform == platform
      ensures params.None? ==> title == None && leftItems == [] && rightItems == []
      ensures params.Some? ==>
        && title == params.value.title
        && leftItems == LeadingItems(params.value.leading, platform) + GroupItemsAsWritten(params.value.actions.GetOr([]), platform).left
        && rightItems == Reverse(GroupItemsAsWritten(params.value.actions.GetOr([]), platform).right)
    {
      this.platform := platform;
      title, leftItems, rightItems := None, [], [];
      new;
      if params.Some? {
        ConfigureItems(params.value);
      }
    }

    /** `configureItems`: a given title replaces the old one; the left items
        are the leading button followed by the left group, the right items
        the right group reversed. */
    method ConfigureItems(params: ToolbarParams)
      modifies this
      ensures title == (if params.title.Some? then params.title else old(title))
      ensures leftItems == LeadingItems(params.leading, platform) + GroupItemsAsWritten(params.actions.GetOr([]), platform).left
      ensures rightItems == Reverse(GroupItemsAsWritten(params.actions.GetOr([]), platform).right)
    {
      if params.title.Some? {
        title := params.title;
      }
      var leadingItems: seq<BarItem> := [];
      if params.leading.Some? {
        var leading := params.leading.value;
        if leading == "" {
          leadingItems := [LeadingButton(IconContent(Resolve(platform, "chevron.left")))];
        } else {
          leadingItems := [LeadingButton(TitleContent(leading))];
        }
      }
      var leftGroup, rightGroup: seq<BarItem> := [], [];
      if params.actions.Some? {
        leftGroup, rightGroup := GroupActions(params.actions.value, platform);
      }
      leftItems := leadingItems + leftGroup;
      rightItems := Reverse(rightGroup);
    }

    /** The channel handler: `updateTitle` with a string title sets it;
        `updateTitle` without one, and every other method, answers "not
        implemented" and changes nothing. */
    method HandleMethodCall(name: string, newTitle: Option<string>) returns (reply: Reply)
      modifies this`title
      ensures name == "updateTitle" && newTitle.Some? ==> reply == Success && title == newTitle
      ensures !(name == "updateTitle" && newTitle.Some?) ==> reply == NotImplemented && title == old(title)
    {
      if name == "updateTitle" && newTitle.Some? {
        title := newTitle;
        reply := Success;
      } else {
        reply := NotImplemented;
      }
    }

    /** Tapping an action button reports its tag, which `EmitTags` shows is
        the index of the action that made the button. */
    method ActionTapped(item: BarItem) returns (index: int)
      requires item.Button?
      ensures index == item.tag
    {
      index := item.tag;
    }
  }
}
